=== FILE: README.md ===
# Word-to-Excel conversion pipeline, modelled in Dafny

This project models the `WordToExcelConverter` pipeline. It turns a Word
document into one spreadsheet sheet per table that a text-generation model
proposes. The pipeline has seven steps:

1. **Flattening** (`extract_text_from_docx`). Paragraphs and table rows become one newline-joined string.
2. **Chunking**. The text is cut into 2000-character slices.
3. **JSON-span scraping**. A greedy regex search finds the text from the first `{` (or `[`) to the last `}` (or `]`) in a model reply.
4. **Content analysis** (`analyze_content`). The model proposes table schemas, with a fixed fallback when its reply does not decode.
5. **Schema reconciliation** (`chunked_analysis`). A fold over the remaining chunks appends tables with new names and grows the narrative.
6. **Row extraction** (`extract_structured_data`). The model is asked for the rows of one table, with a per-column sentinel record when the reply does not decode.
7. **Sheet layout** (`convert_to_excel`). Each sheet gets a 31-character title, a header row, and one row per record built with `get(col, "")`.

The same class appears twice: `app/core/document_processor.py` and the scratch copy `tempCodeRunnerFile.py`. Their method bodies agree up to `convert_to_excel`, except that the scratch copy's reconciliation loop skips a failed chunk with `pass` instead of `continue`. Both leave the analysis unchanged. `convert_to_excel` differs in three ways:
- The scratch copy prints `len(analysis['tables'])` (line 267) before the workbook is created. The `len` raises when `analysis['tables']` is missing or has no length; the table loop would raise on such a value anyway.
- `document_processor.py` extracts a table's rows (line 273) before it creates the sheet (276) and writes the header (279-280). The scratch copy creates the sheet and appends the header (277-278) before the extraction (281). So for a schema whose `name` cannot be sliced, `document_processor.py` sends the extraction prompt and then raises, while the scratch copy raises first. The model reads the whole schema before the prompt, which is the scratch copy's order for `name` (see `TableSpecs.ReadSpec` under "Left out").
- The scratch copy writes rows with `sheet.append`, building each row as `[row_data.get(col, "") for col in columns]`. `document_processor.py` writes one cell at a time. Both give the same cells.

There is one model, and the table cites both files.

## How the outside world is modelled

- **Python values.** A value produced by `json.loads` is a `Json` datatype: null, bool, integer, string, list, or dict as `map<string, Json>`.
  - Python's dynamic operations become small total functions with an explicit error result. `v[k]` is `Subscript`, `d.get(k, default)` is `DictGet`, and a `for` loop is `Iterate`.
  - Exceptions are the datatype `Exc`.
- **The model client.** The text-generation client is an oracle `Oracle = (nat, Prompt) -> Result<string, Exc>`.
  - It is indexed by the number of prompts sent so far, so successive calls may answer differently.
  - Every operation threads the log of prompts it sent (`Step<T>`), so properties about which prompts were sent can be stated.
  - Prompts record the inputs they embed, not their wording.
- **JSON decoding.** `json.loads` is an uninterpreted `Decoder = string -> Option<Json>`; `None` stands for `JSONDecodeError`.
- **Documents and workbooks.** A Word document is its paragraph texts plus tables of rows of cell texts (`DocText.Document`). The workbook is the list of `Sheet`s handed to the spreadsheet library.

Modules follow the pipeline:
- `Results` and `PyStrings` cover `strip`, `join`, `split` and slicing.
- `PyValues`.
- `JsonScrape`.
- `LlmOracle`.
- `TableSpecs`.
- `DocText`.
- `Chunking`.
- `ContentAnalysis`.
- `Reconciliation`.
- `RowExtraction`.
- `SheetLayout`.

## Behaviour worth knowing (the model follows the code)

- **Client exceptions.** They are not recovered with the fallback values. The `llm.generate` calls in `analyze_content` and `extract_structured_data` are outside the `try`, so a client exception aborts the conversion (`ContentAnalysis.AnalyzeContent`, `RowExtraction.ExtractRows`). In the reconciliation loop, only `JSONDecodeError` and `AttributeError` are caught; other client exceptions propagate (`Reconciliation.UpdateStep`).
- **Whole-reply decoding.** Decoding is not a two-tier attempt (the span, then the whole reply). The code decodes the whole reply only when no span is found, never after a span fails to decode (`ContentAnalysis.ParseAnalysis`, `RowExtraction.ParseRows`). `ContentAnalysis.WholeReplyIsNeverAnAnalysis` shows the whole-reply branch of `analyze_content` can never produce a dict: without a `{...}` span, `json.loads` cannot return one.
- **Text order.** The text does not follow the document's interleaving of paragraphs and tables. The code emits all kept paragraphs first, then all kept table rows (`DocText.Units`, `DocText.ExtractTextParts`).
- **Record values.** Record values are not required to be strings. The code hands whatever JSON value the record holds to the sheet (`SheetLayout.RowOf`).
- **Reconciliation failures.** A reply without a `{...}` span fails at `re.search(...).group(1)` with `AttributeError`, which is caught. Such a chunk is skipped and the loop goes on (`Reconciliation.CaughtChunkSkipped`). These raise an uncaught `KeyError` or `TypeError` that ends the conversion: a proposal without a `name` (`Reconciliation.AppendNew`), an `analysis` key missing from the analysis, a non-string addition, and a narrative that is neither a string nor a list (`Reconciliation.GrowNarrative`, `Reconciliation.MergeUpdate`). A list narrative is extended by the characters of `" " + addition`.
- **Empty document.** It raises `IndexError` at `chunks[0]` (`Reconciliation.EmptyTextRaises`); it is not excluded by a precondition.

## Model

| member | source | states |
|---|---|---|
| PyStrings.Strip | app/core/document_processor.py:116 | The result is the input with its leading and trailing whitespace removed: a slice of it, only whitespace outside the slice, non-whitespace at both ends, and empty exactly when the input has no non-whitespace character |
| PyStrings.SplitJoin | app/core/document_processor.py:128 | Splitting a newline-joined list of line-free units at the newlines gives the units back |
| PyStrings.JoinAppend | app/core/document_processor.py:128 | Joining two non-empty lists one after the other is joining each and putting one separator between them, whatever the parts contain |
| DocText.KeptParagraphs | app/core/document_processor.py:115-117 | A paragraph is kept, unstripped, exactly when it has a non-whitespace character; order and repeats are fixed by `KeptParagraphsAppend` and `KeptParagraphsOne` |
| DocText.KeptParagraphsAppend | app/core/document_processor.py:115-117 | Filtering a concatenation of paragraph lists is filtering each and concatenating, so kept paragraphs keep their order and their repeats |
| DocText.KeptParagraphsOne | app/core/document_processor.py:115-117 | One paragraph gives itself, unstripped, when it has a non-whitespace character, and nothing otherwise |
| DocText.StrippedCells | app/core/document_processor.py:122-124 | Cell `i` of a row's text is cell `i` stripped |
| DocText.AllRows | app/core/document_processor.py:120-121 | A row is visited exactly when it belongs to one of the tables; order is fixed by `AllRowsAppend` and `AllRowsOne` |
| DocText.AllRowsAppend | app/core/document_processor.py:120-121 | The rows of a concatenation of table lists are the first list's rows followed by the second's |
| DocText.AllRowsOne | app/core/document_processor.py:120-121 | One table contributes exactly its rows, in order |
| DocText.KeptRows | app/core/document_processor.py:120-126 | A unit is emitted exactly when it is the `" | "`-joined text of a row with some non-blank stripped cell; order and repeats are fixed by `KeptRowsAppend` and `KeptRowsOne` |
| DocText.KeptRowsAppend | app/core/document_processor.py:120-126 | Filtering a concatenation of row lists is filtering each and concatenating, so kept rows keep their order and their repeats |
| DocText.KeptRowsOne | app/core/document_processor.py:120-126 | One row gives its `" | "`-joined stripped text when it is kept, and nothing otherwise |
| DocText.RowKeptIffSomeCellHasText | app/core/document_processor.py:125 | A row is kept exactly when one of its cells has a non-whitespace character |
| DocText.Units | app/core/document_processor.py:109-126 | The units are the kept paragraphs followed by the kept rows of all tables: the paragraphs are a prefix and the rest is exactly the kept rows |
| DocText.ExtractText | app/core/document_processor.py:109-128 | No units give the empty text; otherwise the text starts with the first unit; the full text is fixed by `ExtractTextParts` |
| DocText.ExtractTextParts | app/core/document_processor.py:109-128 | The text is the kept paragraphs newline-joined, one newline, then the kept rows newline-joined; with no kept rows (or no kept paragraphs) it is the other part alone. This holds even when units contain newlines |
| DocText.ExtractTextLines | tempCodeRunnerFile.py:115-128 | Splitting the flattened text at newlines gives the kept paragraphs, then the kept rows |
| DocText.FlattenShape | tempCodeRunnerFile.py:115-128 | A whitespace-only paragraph and a row whose cells are all whitespace drop out; two rows that each have a non-whitespace cell, from two tables, come out in order as their `" | "`-joined texts, joined by one newline |
| Chunking.Chunks | app/core/document_processor.py:215-216 | The chunk count is the ceiling of length/2000, zero exactly for empty text; every chunk is non-empty and at most 2000 long; all but the last are exactly 2000; chunk `k` is the text from position `2000*k`; the last chunk ends at the end of the text |
| Chunking.ChunksPartition | app/core/document_processor.py:215-216 | The chunks, joined with nothing between them, give back the text |
| Chunking.ChunksHeadTail | app/core/document_processor.py:215-216 | A text of at most 2000 characters is one chunk; a longer one is its first 2000 characters followed by the chunks of the rest |
| Chunking.FirstChunkIsWholeExcerpt | tempCodeRunnerFile.py:150 | The analyzer's own `[:2000]` cut leaves a chunk unchanged, and the first chunk is the text's first 2000 characters |
| JsonScrape.Search | app/core/document_processor.py:160 | A match exists exactly when some opener is followed later by a closer; the reported match starts at the leftmost opener and ends at the last closer |
| JsonScrape.Scrape | app/core/document_processor.py:160-162 | `group(1)` exists exactly when a match exists, starts with the opener, ends with the closer, and is the text between a matching pair |
| JsonScrape.ScrapeBounds | app/core/document_processor.py:160-162 | With the first opener at `i` and the last closer at `j`, the span is `s[i..j]` (both ends included) when `i < j`, and there is none otherwise |
| JsonScrape.OutermostSpan | app/core/document_processor.py:160-162 | Whenever `i..j` is a matching pair with no opener before `i` and no closer after `j`, `group(1)` is exactly `s[i..j]` |
| ContentAnalysis.FallbackAnalysis | app/core/document_processor.py:167-177 | The fallback has exactly the keys `tables` and `analysis`: one table `ExtractedData` with column `Content` and its rule, and the fixed narrative |
| ContentAnalysis.ParseAnalysis | app/core/document_processor.py:158-177 | With a `{...}` match, the span from the first `{` to the last `}` is decoded, or the fallback is used; only without a match is the whole reply decoded, or the fallback is used |
| ContentAnalysis.AnalyzeContent | app/core/document_processor.py:130-177 | Exactly one prompt, holding the first 2000 characters; a client exception propagates unchanged; a reply is parsed as `ParseAnalysis` says |
| ContentAnalysis.UndecodableSpanGivesFallback | tempCodeRunnerFile.py:158-177 | An undecodable object span gives the fallback, whose table list reads back as exactly one schema, `ExtractedData` with columns `["Content"]` |
| ContentAnalysis.WholeReplyIsNeverAnAnalysis | app/core/document_processor.py:164-166 | When dicts can only be decoded from text containing `{...}`, the whole-reply branch gives the fallback or a value whose `['tables']` raises `TypeError` |
| TableSpecs.ReadSpec | app/core/document_processor.py:184-186 | A schema can be read exactly when it is a dict with a string `name`, a list-of-strings `columns` and an `extraction_rules`; the fields read are those values |
| TableSpecs.ReadSpecJson | app/core/document_processor.py:139-145 | Reading the JSON form of a schema gives the schema back |
| Reconciliation.NamesOf | app/core/document_processor.py:241 | The snapshot succeeds exactly when every table has a `name`, and holds the names in order |
| Reconciliation.Fresh | app/core/document_processor.py:242-244 | A proposal is kept exactly when its name is not in the snapshot; order and repeats are fixed by `FreshAppend` and `FreshOne` |
| Reconciliation.FreshAppend | app/core/document_processor.py:242-244 | Filtering a concatenation of proposal lists is filtering each and concatenating, so kept proposals keep their order and their repeats |
| Reconciliation.FreshOne | app/core/document_processor.py:242-244 | One proposal is kept exactly when its name is not in the snapshot |
| Reconciliation.AppendNew | app/core/document_processor.py:242-244 | On a list, the result is the old tables followed by the proposals with new names. It fails exactly when a proposal has no name, and then with `KeyError` or `TypeError`, which the loop does not catch. Appending a new table to a non-list raises `AttributeError`, and only a non-list does. A non-list with no new proposal is left as it is, without raising |
| Reconciliation.GrowNarrative | app/core/document_processor.py:247 | A string narrative becomes old + `" "` + addition. A list narrative keeps its items and gains the one-character strings of `" "` + addition, in order. A missing `analysis` key raises `KeyError`. A non-string addition, or a narrative that is neither a string nor a list, raises `TypeError` |
| Reconciliation.MergeUpdate | app/core/document_processor.py:240-247 | A merged update is a dict with exactly the analysis's keys. Its tables are the old ones plus the fresh proposals of `update.get('tables', [])`. Its narrative is old + `" "` + `update.get('analysis', '')`. Every other key is unchanged. A list narrative is extended by the characters of `" "` + addition. A non-dict update raises `AttributeError`. A caught exception (`AttributeError`, never `JSONDecodeError`) comes only from a non-dict update, or from a non-list table list that meets a new proposal. A non-iterable `tables` proposal or a non-string addition raises `TypeError`. Once the tables are merged, the merge fails exactly when growing the narrative does, with the same exception: `KeyError('analysis')` for a missing key, `TypeError` for a narrative that is neither a string nor a list. The merge succeeds when the old tables and the proposals are lists of named tables and both narratives are strings |
| Reconciliation.TryUpdate | app/core/document_processor.py:236-249 | A client exception comes out unchanged. A reply with no `{...}` match raises `AttributeError`. Otherwise the outermost `{...}` span is decoded: it raises `JSONDecodeError` when it does not decode, and is merged into the analysis when it does |
| Reconciliation.UpdateStep | app/core/document_processor.py:226-251 | One update prompt with the current tables, the part number and the chunk. A client `JSONDecodeError`/`AttributeError` leaves the analysis unchanged; any other exception propagates; a success is the old analysis or a merge of it |
| Reconciliation.UpdateStepOutcome | app/core/document_processor.py:236-251 | The step's result is the `try` body's result when that succeeds or raises an exception not caught; a caught `JSONDecodeError` or `AttributeError` leaves the analysis unchanged |
| Reconciliation.DecodedUpdateIsMerged | app/core/document_processor.py:236-247 | When the reply's outermost `{...}` span decodes to an update that merges, the step's result is exactly that merge |
| Reconciliation.Reconcile | app/core/document_processor.py:226-253 | The loop sends at most one prompt per remaining chunk and only extends the log; when it completes it has sent exactly one per chunk. Its results are fixed by `ReconcileOne`, `ReconcileCons` and `ReconcileAppend` |
| Reconciliation.FoldAppend | app/core/document_processor.py:226-253 | For any step, the loop over `c1 + c2` runs over `c1`, then over `c2` from where `c1` stopped unless it failed, with part numbers continuing |
| Reconciliation.ReconcileOne | app/core/document_processor.py:226-251 | The loop over one chunk is exactly that chunk's step |
| Reconciliation.ReconcileCons | app/core/document_processor.py:226-251 | One turn of the loop: the head chunk's step, then the rest from the step's analysis and log with the next part number, unless the step raised |
| Reconciliation.ReconcileAppend | app/core/document_processor.py:226-253 | The loop over `c1 + c2` folds `c1` first. An uncaught exception there ends the loop with it. Otherwise `c2` is folded into `c1`'s result and log, with part numbers continuing after `c1`'s, so every merge reaches the final analysis |
| Reconciliation.CaughtChunkSkipped | app/core/document_processor.py:236-251 | A chunk whose `try` body raises `JSONDecodeError` or `AttributeError` is skipped: the loop goes on with the analysis unchanged, one prompt later |
| Reconciliation.ChunkedAnalysis | app/core/document_processor.py:212-253 | An empty text raises `IndexError` with no prompt; a text of at most 2000 characters is the analyzer's result; a longer one analyzes the first 2000 characters and, unless that raises, folds the chunks of the rest starting at part 2 |
| Reconciliation.FailedChunkLeavesAnalysis | tempCodeRunnerFile.py:236-251 | A reply with no `{...}` span, or an undecodable one, leaves the analysis exactly as it was |
| Reconciliation.MergeExtends | app/core/document_processor.py:240-247 | A merge keeps the old tables as a prefix and the old narrative as a prefix, and changes no other key |
| Reconciliation.ReconcileExtends | app/core/document_processor.py:226-253 | Over the whole fold, the initial tables stay an unchanged prefix, in order, and the narrative is never truncated |
| Reconciliation.ReconcilePrompts | app/core/document_processor.py:226-237 | The fold sends exactly one update prompt per remaining chunk, in order, each numbered consecutively |
| Reconciliation.EmptyTextRaises | app/core/document_processor.py:215-219 | An empty text raises `IndexError` before any prompt |
| Reconciliation.SingleChunkIsAnalysis | app/core/document_processor.py:219-223 | A text of one chunk returns the analyzer's result unchanged, after one prompt holding the whole text |
| Reconciliation.ChunkedAnalysisPrompts | app/core/document_processor.py:212-253 | The first chunk goes to the analyzer, then each later chunk, in order, to an update prompt numbered from 2 |
| Reconciliation.SnapshotAppendsBothNewTwins | app/core/document_processor.py:241-244 | Two proposals sharing a new name are both appended, because the snapshot is taken before the update |
| Reconciliation.PresentNameNotAppended | tempCodeRunnerFile.py:241-244 | The old tables stay a prefix, and no appended table carries the name of a table present before the update |
| Reconciliation.ReproposingAppendsNothing | app/core/document_processor.py:241-244 | Proposing the same tables again after a merge appends nothing |
| RowExtraction.SentinelRows | app/core/document_processor.py:207-210 | Exactly one record, whose keys are the columns, each mapped to `"Error extracting <column>"` |
| RowExtraction.ParseRows | app/core/document_processor.py:198-210 | With a `[...]` match, the span from the first `[` to the last `]` is decoded, or the sentinel record is used; only without a match is the whole reply decoded, or the sentinel record is used |
| RowExtraction.ExtractRows | app/core/document_processor.py:179-210 | Exactly one prompt with the schema's name, columns and rule and the text given; a client exception propagates; a reply is parsed as `ParseRows` says |
| RowExtraction.UndecodableSpanGivesSentinel | tempCodeRunnerFile.py:207-210 | For columns `["A","B"]`, an undecodable span gives exactly `[{"A": "Error extracting A", "B": "Error extracting B"}]` |
| SheetLayout.Title | app/core/document_processor.py:276 | The title is a prefix of the name of at most 31 characters: the whole name when it fits, exactly 31 characters otherwise |
| SheetLayout.HeaderRow | app/core/document_processor.py:279-280 | Row 1 holds the columns, in order |
| SheetLayout.RowOf | tempCodeRunnerFile.py:281-282 | Cell `j` is the record's value for column `j`, or `""` when the key is missing; extra keys are dropped; a non-dict record raises exactly when there is a column |
| SheetLayout.RowsOf | app/core/document_processor.py:283-285 | One row per record, in order; it fails exactly when some record cannot be laid out |
| SheetLayout.LayoutSheet | tempCodeRunnerFile.py:276-282 | A sheet is the truncated title, the header row, then record `k` as row `k+2`. On a list of records, it succeeds exactly when there are no columns or every record is a dict |
| SheetLayout.ReadAll | app/core/document_processor.py:271-279 | The table list reads as schemas exactly when every table does, and schema `k` is table `k` read |
| SheetLayout.WriteTable | app/core/document_processor.py:272-285 | An unreadable schema raises before any prompt. Otherwise exactly one extraction prompt with that schema and the given text is sent. A client exception propagates; a reply gives the sheet laid out from the rows parsed out of it. A written sheet carries the schema's truncated title and header row |
| SheetLayout.WriteTables | app/core/document_processor.py:271-285 | One sheet per table, in order, each with its schema's title and header row, after exactly one extraction prompt per table carrying the given text; the log is only extended. Sheet `k` is tied to table `k` by `WriteTablesSheet`, and the whole result by `WriteTablesOne` and `WriteTablesAppend` |
| SheetLayout.WriteTablesOne | app/core/document_processor.py:271-285 | The loop over one table gives that table's sheet, or its exception, with its prompt |
| SheetLayout.WriteTablesStep | app/core/document_processor.py:271-285 | One turn of the table loop: the head table is written, then the rest after its prompt; the head's or the rest's exception ends the loop, otherwise the head's sheet comes first |
| SheetLayout.WriteTablesAppend | app/core/document_processor.py:271-285 | The loop over `t1 + t2` writes `t1` first. An exception there ends it. Otherwise `t2` is written after `t1`'s prompts: the loop fails with `t2`'s exception, or gives `t1`'s sheets followed by `t2`'s |
| SheetLayout.WriteTablesSheet | app/core/document_processor.py:271-285 | In a completed table loop, sheet `k` is exactly what writing table `k` alone gives, after the extraction prompts of the tables before it |
| SheetLayout.WriteTablesSheets | app/core/document_processor.py:271-285 | The same for every sheet of a completed table loop at once |
| SheetLayout.SentinelSheet | app/core/document_processor.py:283-285 | A failed extraction lays out as the header row and one row of `"Error extracting <column>"` cells, one per column |
| SheetLayout.MissingColumnIsEmpty | app/core/document_processor.py:285 | A column missing from a record is written as `""` |
| SheetLayout.LongNameTitle | app/core/document_processor.py:276 | A 40-character name is titled by its first 31 characters, while the schema keeps all 40 |
| SheetLayout.SameTitleStillAppended | app/core/document_processor.py:241-244 | Two names that differ only after character 31 get the same sheet title, yet the merge keeps both tables, because it compares whole names |
| SheetLayout.PeopleSheet | tempCodeRunnerFile.py:276-282 | A two-person table lays out as the header row followed by one row per person |
| SheetLayout.DictRecordsWithoutColumns | tempCodeRunnerFile.py:281-282 | When the extracted value is a dict and the schema has no columns, the loop walks the dict's keys and writes one empty row per key under the empty header row, without raising |
| SheetLayout.AnalysisSendsNoExtract | app/core/document_processor.py:212-253 | A completed chunked analysis sends no extraction prompt |
| SheetLayout.WriteTablesCarries | app/core/document_processor.py:271-273 | Every extraction prompt of the table loop carries the text given to it |
| SheetLayout.ExtractionSeesFullText | app/core/document_processor.py:261-273 | In a completed conversion there is one sheet per table of the final analysis, and every extraction prompt carries the full flattened text, never a chunk |
| SheetLayout.ConvertToExcel | app/core/document_processor.py:255-289 | An empty document text raises `IndexError` with no prompt; a failed analysis ends the conversion with its exception after its own prompts; the analysis prompts come before any extraction prompt. A successful analysis without a `tables` key, or whose `tables` cannot be iterated, raises; otherwise the conversion is the table loop over its tables, over the full text, after the analysis prompts, followed by the save |
| SheetLayout.Save | app/core/document_processor.py:268-288 | With the default sheet removed, saving succeeds exactly when the loop wrote at least one sheet, and then gives the loop's sheets unchanged; no sheet raises `IndexError`; a loop exception passes through |
| SheetLayout.NoTablesRaises | app/core/document_processor.py:267-288 | An analysis whose `tables` is empty ends the conversion with `IndexError` at the save, after no extraction prompt |
| SheetLayout.ConvertedSheets | app/core/document_processor.py:261-285 | In a completed conversion, sheet `k` is exactly what writing table `k` of the final analysis gives over the full flattened text, after the analysis prompts and the extraction prompts of the tables before it |

## Left out

- **The model clients.** `OllamaInterface`, `LMStudioInterface` and `TextGenerationWebUIInterface` do HTTP I/O and liveness probes. They are replaced by the oracle; their failures are the `ConnectionError` and `HttpError` values of `Exc`.
- **Prompt wording.** Prompts record only the inputs they embed. `json.dumps` of the tables is kept as the `Json` value itself.
- **File formats.** `docx.Document` reading, `openpyxl` workbook creation and saving, and the default output path from `os.path.splitext` are foreign library and file-system calls. The document is given as data, and the result is the list of sheets. Of the save, only the exception a workbook without sheets raises is modelled (`SheetLayout.Save`).
- **openpyxl title handling.** openpyxl's renaming of duplicate sheet titles and its rejection of invalid title characters are not part of this model. `create_sheet(title="")` falls back to openpyxl's default title `"Sheet"`, while `SheetLayout.Title` of an empty name is `""`.
- **Illegal characters in cells.** openpyxl raises `IllegalCharacterError` for a string cell value that holds a control character it forbids. The model writes such strings into the sheet (`SheetLayout.RowOf`, `SheetLayout.HeaderRow`).
- **Numbers.** Floating-point JSON numbers are not modelled; numbers are integers.
- **Python equality.** Equality quirks such as `True == 1` in the name comparison are not modelled; names compare as JSON values.
- **Duplicate keys.** Duplicate keys inside a decoded JSON object are not modelled; the decoder returns a map.
- PyValues.Iterate: iterating a dict gives one string per key, as Python does, but the strings are placeholders, not the keys' text. Every consumer either subscripts such a string (`TypeError`), calls `.get` on it (`AttributeError`), or, for a record with no columns to look up, reads nothing from it. So only the number of keys matters.
- TableSpecs.ReadSpec: requires the columns to be a JSON list of strings and reads the whole schema before the extraction call. The source raises wherever it first uses a bad field, so both the point and the kind of the exception can differ. For example, `{"name": "T", "columns": [1]}` raises `TypeError` at `', '.join(...)` (line 185) in the source, but `KeyError("extraction_rules")` in the model. A schema whose `name` is not a string also raises after its extraction prompt in `document_processor.py` (line 276), but before it in the model. A string column list would be accepted by the source's `join` and written character by character; the model raises instead.
- **Cell values openpyxl rejects.** openpyxl refuses list and dict cell values, so a record value that is a list or a dict raises when it is written. The model writes any JSON value into the sheet (`SheetLayout.RowOf`).
- SheetLayout.WriteTables: a failure while writing one table aborts the conversion, as in the source. The partially built workbook is not modelled, because it is never saved.
- `print` calls in the fallback branches and the scratch copy's summary at line 267 are not modelled; they are console output. The `len` in that summary is discussed above.
- The FastAPI, Flask, Celery, database, configuration, pandas wrapper, command-line and React parts of the repository are outside the converter pipeline and are not part of this model.

=== FILE: chunking.dfy ===
/** Splitting the document text into fixed-size chunks for analysis
    (`chunked_analysis`, first two statements). */
module Chunking {
  import opened PyStrings

  /** Characters per chunk: `chunk_size = 2000`. */
  const ChunkSize: nat := 2000

  /** `len(range(0, n, ChunkSize))`. */
  function ChunkCount(n: nat): nat {
    (n + ChunkSize - 1) / ChunkSize
  }

  /** No chunks for an empty text; otherwise just enough chunks to cover
      it, the last one possibly short. */
  lemma ChunkCountBounds(n: nat)
    ensures ChunkCount(n) == 0 <==> n == 0
    ensures n > 0 ==> (ChunkCount(n) - 1) * ChunkSize < n <= ChunkCount(n) * ChunkSize
  {
  }

  /** `text[i:i+2000]` for the chunk starting at `i = k * 2000`. */
  function Piece(text: string, k: nat): string
    requires k * ChunkSize <= |text|
  {
    Take(text[k * ChunkSize..], ChunkSize)
  }

  /** Every piece the comprehension takes is a non-empty slice of the text,
      full-sized unless it is the last. */
  lemma PieceBounds(text: string)
    ensures forall k :: 0 <= k < ChunkCount(|text|) ==>
      && k * ChunkSize < |text|
      && 0 < |Piece(text, k)| <= ChunkSize
      && k * ChunkSize + |Piece(text, k)| <= |text|
      && Piece(text, k) == text[k * ChunkSize .. k * ChunkSize + |Piece(text, k)|]
      && (k < ChunkCount(|text|) - 1 ==> |Piece(text, k)| == ChunkSize)
      && (k == ChunkCount(|text|) - 1 ==> k * ChunkSize + |Piece(text, k)| == |text|)
  {
    ChunkCountBounds(|text|);
    forall k | 0 <= k < ChunkCount(|text|)
      ensures k * ChunkSize < |text|
      ensures k < ChunkCount(|text|) - 1 ==> k * ChunkSize + ChunkSize < |text|
    {
    }
  }

  /** `[text[i:i+2000] for i in range(0, len(text), 2000)]`. */
  function Chunks(text: string): (r: seq<string>)
    ensures |text| > 0 ==> (|r| - 1) * ChunkSize < |text| <= |r| * ChunkSize
    ensures |r| == 0 <==> |text| == 0
    ensures forall k :: 0 <= k < |r| ==> 0 < |r[k]| <= ChunkSize
    ensures forall k :: 0 <= k < |r| - 1 ==> |r[k]| == ChunkSize
    ensures |r| > 0 ==> (|r| - 1) * ChunkSize + |r[|r| - 1]| == |text|
    ensures forall k :: 0 <= k < |r| ==> k * ChunkSize + |r[k]| <= |text| && r[k] == text[k * ChunkSize .. k * ChunkSize + |r[k]|]
  {
    ChunkCountBounds(|text|);
    PieceBounds(text);
    seq(ChunkCount(|text|), k requires 0 <= k < ChunkCount(|text|) => Piece(text, k))
  }

  /** A text longer than one chunk is its first chunk followed by the chunks
      of the rest. */
  lemma ChunksUnfold(text: string)
    requires |text| > ChunkSize
    ensures Chunks(text) == [text[..ChunkSize]] + Chunks(text[ChunkSize..])
  {
    var a, b := Chunks(text), Chunks(text[ChunkSize..]);
    assert |a| == 1 + |b|;
    forall k | 1 <= k < |a| ensures a[k] == b[k - 1] {
      assert text[ChunkSize..][(k - 1) * ChunkSize..] == text[k * ChunkSize..];
    }
  }

  /** A text of at most one chunk is its own only chunk; a longer one is its
      first 2000 characters followed by the chunks of the rest. */
  lemma ChunksHeadTail(text: string)
    ensures 0 < |text| <= ChunkSize ==> Chunks(text) == [text]
    ensures |text| > ChunkSize ==> Chunks(text)[0] == text[..ChunkSize] && Chunks(text)[1..] == Chunks(text[ChunkSize..])
  {
    if |text| > ChunkSize {
      ChunksUnfold(text);
    } else if |text| > 0 {
      assert Chunks(text)[0] == text[0..|text|] == text;
    }
  }

  /** Chunking partitions the text: the chunks, joined with nothing between
      them (`"".join(chunks)`), give it back. */
  lemma {:induction false} ChunksPartition(text: string)
    ensures Join("", Chunks(text)) == text
    decreases |text|
  {
    var r := Chunks(text);
    if |text| == 0 {
    } else if |text| <= ChunkSize {
      assert |r| == 1 && r[0] == text[..|text|];
    } else {
      ChunksUnfold(text);
      ChunksPartition(text[ChunkSize..]);
      assert r[1..] == Chunks(text[ChunkSize..]);
      assert text[..ChunkSize] + text[ChunkSize..] == text;
    }
  }

  /** The analyzer's own `text[:2000]` cut changes nothing on a chunk, and the
      first chunk is the first 2000 characters of the text. */
  lemma FirstChunkIsWholeExcerpt(text: string)
    requires |text| > 0
    ensures Take(Chunks(text)[0], ChunkSize) == Chunks(text)[0] == Take(text, ChunkSize)
  {
  }
}

=== FILE: content_analysis.dfy ===
/** Proposing table schemas for one chunk of text (`analyze_content`). */
module ContentAnalysis {
  import opened Results
  import opened PyStrings
  import opened PyValues
  import opened JsonScrape
  import opened LlmOracle
  import opened TableSpecs

  /** How much of its text the analyzer puts in the prompt: `text[:2000]`. */
  const ExcerptLength: nat := 2000

  /** The schema used when the reply cannot be decoded. */
  const FallbackSpec := TableSpec("ExtractedData", ["Content"], JStr("Extract all content as raw text"))

  /** The narrative used when the reply cannot be decoded. */
  const FallbackNarrative := "Could not analyze document structure. Using raw text extraction."

  /** The analysis returned when `json.loads` raises `JSONDecodeError`. */
  function FallbackAnalysis(): (r: Json)
    ensures r.JObj? && r.fields.Keys == {"tables", "analysis"}
    ensures Subscript(r, "tables") == Success(JArr([SpecJson(FallbackSpec)]))
    ensures Subscript(r, "analysis") == Success(JStr(FallbackNarrative))
  {
    JObj(map["tables" := JArr([SpecJson(FallbackSpec)]), "analysis" := JStr(FallbackNarrative)])
  }

  /** The value `analyze_content` returns for a reply: the object span decoded
      when there is one, the whole reply decoded only when there is none, and
      the fallback analysis when that one decode fails. */
  function ParseAnalysis(decode: Decoder, reply: string): (r: Json)
    ensures (forall i, j :: !IsMatch(reply, '{', '}', i, j)) ==> r == decode(reply).GetOr(FallbackAnalysis())
    ensures forall i, j :: Outermost(reply, '{', '}', i, j) ==> r == decode(reply[i..j + 1]).GetOr(FallbackAnalysis())
  {
    OutermostSpan(reply, '{', '}');
    match ObjectSpan(reply)
    case Some(span) => decode(span).GetOr(FallbackAnalysis())
    case None => decode(reply).GetOr(FallbackAnalysis())
  }

  /** `analyze_content(text)`: one prompt with the first 2000 characters; an
      exception from the client propagates, since only the decoding is inside
      the `try`. */
  function AnalyzeContent(env: Env, log: seq<Prompt>, text: string): (r: Step<Json>)
    ensures r.log == log + [AnalyzePrompt(Take(text, ExcerptLength))]
    ensures env.llm(|log|, AnalyzePrompt(Take(text, ExcerptLength))).Failure? ==>
      r.result == Failure(env.llm(|log|, AnalyzePrompt(Take(text, ExcerptLength))).error)
    ensures env.llm(|log|, AnalyzePrompt(Take(text, ExcerptLength))).Success? ==>
      r.result == Success(ParseAnalysis(env.decode, env.llm(|log|, AnalyzePrompt(Take(text, ExcerptLength))).value))
  {
    var reply := Generate(env, log, AnalyzePrompt(Take(text, ExcerptLength)));
    match reply.result
    case Failure(e) => Step(Failure(e), reply.log)
    case Success(s) => Step(Success(ParseAnalysis(env.decode, s)), reply.log)
  }

  /** A reply whose object span does not decode gives exactly one table,
      `ExtractedData` with the single column `Content`; the whole reply is not
      tried instead. */
  lemma UndecodableSpanGivesFallback(decode: Decoder, reply: string)
    requires ObjectSpan(reply).Some? && decode(ObjectSpan(reply).value).None?
    ensures ParseAnalysis(decode, reply) == FallbackAnalysis()
    ensures Subscript(ParseAnalysis(decode, reply), "tables").Success?
    ensures Iterate(Subscript(ParseAnalysis(decode, reply), "tables").value).Success?
    ensures |Iterate(Subscript(ParseAnalysis(decode, reply), "tables").value).value| == 1
    ensures ReadSpec(Iterate(Subscript(ParseAnalysis(decode, reply), "tables").value).value[0])
         == Success(TableSpec("ExtractedData", ["Content"], JStr("Extract all content as raw text")))
  {
    ReadSpecJson(FallbackSpec);
  }

  /** A decoder that, like `json.loads`, only returns a dict for a text with a
      `{` followed later by a `}`. */
  ghost predicate DictsNeedBraces(decode: Decoder) {
    forall s :: decode(s).Some? && decode(s).value.JObj? ==> exists i, j :: IsMatch(s, '{', '}', i, j)
  }

  /** The whole-reply decode in `analyze_content` never yields a usable
      analysis: it only runs when the reply has no `{...}` span, and then it
      decodes to something other than a dict, whose `['tables']` raises
      `TypeError`. */
  lemma WholeReplyIsNeverAnAnalysis(decode: Decoder, reply: string)
    requires DictsNeedBraces(decode)
    requires ObjectSpan(reply).None?
    ensures ParseAnalysis(decode, reply) == FallbackAnalysis() || Subscript(ParseAnalysis(decode, reply), "tables") == Failure(TypeError)
  {
  }
}

=== FILE: doc_text.dfy ===
/** Flattening a Word document into the one string the converter analyses
    (`extract_text_from_docx`). */
module DocText {
  import opened PyStrings

  /** A Word document as python-docx exposes it: the body paragraphs' text in
      order, then the tables, each a sequence of rows of cell texts. */
  datatype Document = Document(paragraphs: seq<string>, tables: seq<seq<seq<string>>>)

  /** The paragraphs that have text once stripped, kept unstripped and in order. */
  function KeptParagraphs(ps: seq<string>): (r: seq<string>)
    ensures |r| <= |ps|
    ensures forall p :: p in r <==> p in ps && HasText(p)
  {
    if |ps| == 0 then []
    else (if Strip(ps[0]) != "" then [ps[0]] else []) + KeptParagraphs(ps[1..])
  }

  /** The stripped text of every cell of a row. */
  function StrippedCells(cells: seq<string>): (r: seq<string>)
    ensures |r| == |cells|
    ensures forall i :: 0 <= i < |r| ==> r[i] == Strip(cells[i])
  {
    seq(|cells|, i requires 0 <= i < |cells| => Strip(cells[i]))
  }

  /** A row is kept when one of its stripped cells is not empty. */
  predicate RowKept(cells: seq<string>) {
    exists i :: 0 <= i < |cells| && Strip(cells[i]) != ""
  }

  /** The text of a row: its stripped cells joined with `" | "`. */
  function RowText(cells: seq<string>): string {
    Join(" | ", StrippedCells(cells))
  }

  /** The rows of all tables, table after table. */
  function AllRows(tables: seq<seq<seq<string>>>): (r: seq<seq<string>>)
    ensures forall row :: row in r <==> exists t :: t in tables && row in t
  {
    if |tables| == 0 then [] else tables[0] + AllRows(tables[1..])
  }

  /** Shifting the witness of a kept row from `rows[1..]` to `rows`. */
  lemma KeptTail(rows: seq<seq<string>>, rest: seq<string>)
    requires |rows| > 0
    requires forall u :: u in rest <==> exists k :: 0 <= k < |rows[1..]| && RowKept(rows[1..][k]) && u == RowText(rows[1..][k])
    ensures forall u :: u in rest <==> exists k :: 1 <= k < |rows| && RowKept(rows[k]) && u == RowText(rows[k])
  {
    forall u | u in rest ensures exists k :: 1 <= k < |rows| && RowKept(rows[k]) && u == RowText(rows[k]) {
      var k :| 0 <= k < |rows[1..]| && RowKept(rows[1..][k]) && u == RowText(rows[1..][k]);
      assert rows[1..][k] == rows[k + 1];
    }
    forall u | exists k :: 1 <= k < |rows| && RowKept(rows[k]) && u == RowText(rows[k]) ensures u in rest {
      var k :| 1 <= k < |rows| && RowKept(rows[k]) && u == RowText(rows[k]);
      assert rows[1..][k - 1] == rows[k];
    }
  }

  /** The text of each kept row, in order. */
  function KeptRows(rows: seq<seq<string>>): (r: seq<string>)
    ensures |r| <= |rows|
    ensures forall u :: u in r <==> exists k :: 0 <= k < |rows| && RowKept(rows[k]) && u == RowText(rows[k])
  {
    if |rows| == 0 then []
    else
      var rest := KeptRows(rows[1..]);
      KeptTail(rows, rest);
      (if RowKept(rows[0]) then [RowText(rows[0])] else []) + rest
  }

  /** The text units of a document: every kept paragraph, then every kept
      table row; paragraphs never interleave with table rows. */
  function Units(doc: Document): (r: seq<string>)
    ensures |r| <= |doc.paragraphs| + |AllRows(doc.tables)|
    ensures KeptParagraphs(doc.paragraphs) <= r
    ensures r[|KeptParagraphs(doc.paragraphs)|..] == KeptRows(AllRows(doc.tables))
  {
    var ps, rows := KeptParagraphs(doc.paragraphs), KeptRows(AllRows(doc.tables));
    assert (ps + rows)[|ps|..] == rows;
    ps + rows
  }

  /** `extract_text_from_docx`: the units joined with newlines. */
  function ExtractText(doc: Document): (r: string)
    ensures |Units(doc)| == 0 ==> r == ""
    ensures |Units(doc)| > 0 ==> Units(doc)[0] <= r
  {
    Join("\n", Units(doc))
  }

  /** Filtering paragraphs distributes over concatenation: the kept
      paragraphs keep their order and their repeats. */
  lemma {:induction false} KeptParagraphsAppend(a: seq<string>, b: seq<string>)
    ensures KeptParagraphs(a + b) == KeptParagraphs(a) + KeptParagraphs(b)
    decreases |a|
  {
    if |a| == 0 {
      assert a + b == b;
    } else {
      KeptParagraphsAppend(a[1..], b);
      KeptParagraphsAppendStep(a, b);
    }
  }

  /** The inductive step of `KeptParagraphsAppend`: peel the first paragraph. */
  lemma KeptParagraphsAppendStep(a: seq<string>, b: seq<string>)
    requires |a| > 0
    requires KeptParagraphs(a[1..] + b) == KeptParagraphs(a[1..]) + KeptParagraphs(b)
    ensures KeptParagraphs(a + b) == KeptParagraphs(a) + KeptParagraphs(b)
  {
    var head := if Strip(a[0]) != "" then [a[0]] else [];
    calc {
      KeptParagraphs(a + b);
      { ConsSplit(a, b); KeptParagraphsCons(a[0], a[1..] + b); }
      head + KeptParagraphs(a[1..] + b);
      head + (KeptParagraphs(a[1..]) + KeptParagraphs(b));
      (head + KeptParagraphs(a[1..])) + KeptParagraphs(b);
      { KeptParagraphsCons(a[0], a[1..]); }
      KeptParagraphs(a) + KeptParagraphs(b);
    }
  }

  /** Filtering paragraphs one at a time: the head is kept when it has text,
      then the rest is filtered. */
  lemma KeptParagraphsCons(p: string, rest: seq<string>)
    ensures KeptParagraphs([p] + rest) == (if Strip(p) != "" then [p] else []) + KeptParagraphs(rest)
  {
    assert ([p] + rest)[0] == p;
    assert ([p] + rest)[1..] == rest;
  }

  /** A single paragraph is kept, unstripped, exactly when it has text. */
  lemma KeptParagraphsOne(p: string)
    ensures KeptParagraphs([p]) == if HasText(p) then [p] else []
  {
    assert [p][1..] == [];
  }

  /** Flattening tables distributes over concatenation: the tables' rows
      follow each other table after table. */
  lemma {:induction false} AllRowsAppend(a: seq<seq<seq<string>>>, b: seq<seq<seq<string>>>)
    ensures AllRows(a + b) == AllRows(a) + AllRows(b)
    decreases |a|
  {
    if |a| == 0 {
      assert a + b == b;
    } else {
      assert (a + b)[0] == a[0];
      assert (a + b)[1..] == a[1..] + b;
      AllRowsAppend(a[1..], b);
    }
  }

  /** A single table contributes its rows, in order. */
  lemma AllRowsOne(t: seq<seq<string>>)
    ensures AllRows([t]) == t
  {
    assert [t][1..] == [];
  }

  /** Filtering rows distributes over concatenation: the kept rows keep their
      order and their repeats. */
  lemma {:induction false} KeptRowsAppend(a: seq<seq<string>>, b: seq<seq<string>>)
    ensures KeptRows(a + b) == KeptRows(a) + KeptRows(b)
    decreases |a|
  {
    if |a| == 0 {
      assert a + b == b;
    } else {
      assert a + b == [a[0]] + (a[1..] + b);
      KeptRowsCons(a[0], a[1..] + b);
      KeptRowsAppend(a[1..], b);
      assert a == [a[0]] + a[1..];
      KeptRowsCons(a[0], a[1..]);
    }
  }

  /** A single row gives its text exactly when it is kept. */
  lemma KeptRowsOne(row: seq<string>)
    ensures KeptRows([row]) == if RowKept(row) then [RowText(row)] else []
  {
    assert [row][1..] == [];
  }

  /** The flattened text is the kept paragraphs' text and the kept rows' text
      with one line break between them, whatever line breaks the units
      themselves hold. */
  lemma ExtractTextParts(doc: Document)
    ensures var ps, rows := KeptParagraphs(doc.paragraphs), KeptRows(AllRows(doc.tables));
      && (|ps| > 0 && |rows| > 0 ==> ExtractText(doc) == Join("\n", ps) + "\n" + Join("\n", rows))
      && (|ps| == 0 ==> ExtractText(doc) == Join("\n", rows))
      && (|rows| == 0 ==> ExtractText(doc) == Join("\n", ps))
  {
    var ps, rows := KeptParagraphs(doc.paragraphs), KeptRows(AllRows(doc.tables));
    if |ps| > 0 && |rows| > 0 {
      JoinAppend("\n", ps, rows);
    } else if |ps| == 0 {
      assert Units(doc) == rows;
    } else {
      assert Units(doc) == ps;
    }
  }

  /** A row is kept exactly when one of its cells has a non-whitespace character. */
  lemma RowKeptIffSomeCellHasText(cells: seq<string>)
    ensures RowKept(cells) <==> exists i :: 0 <= i < |cells| && HasText(cells[i])
  {
    if exists i :: 0 <= i < |cells| && HasText(cells[i]) {
      var i :| 0 <= i < |cells| && HasText(cells[i]);
      assert Strip(cells[i]) != "";
    }
  }

  /** When no unit contains a line break, splitting the extracted text at line
      breaks gives back the kept paragraphs followed by the kept rows. */
  lemma ExtractTextLines(doc: Document)
    requires |Units(doc)| > 0
    requires forall k :: 0 <= k < |Units(doc)| ==> '\n' !in Units(doc)[k]
    ensures Split(ExtractText(doc), '\n') == KeptParagraphs(doc.paragraphs) + KeptRows(AllRows(doc.tables))
  {
    SplitJoin(Units(doc), '\n');
  }

  /** Two parts joined are the first, the separator, the second. */
  lemma JoinTwo(sep: string, a: string, b: string)
    ensures Join(sep, [a, b]) == a + sep + b
  {
    assert [a, b][1..] == [b];
  }

  /** The rows of two tables are the first table's rows, then the second's. */
  lemma AllRowsOfTwo(a: seq<seq<string>>, b: seq<seq<string>>)
    ensures AllRows([a, b]) == a + b
  {
    assert [a, b][1..] == [b];
    assert AllRows([b]) == b + AllRows([]);
  }

  /** Filtering rows one at a time: the head row's text when it is kept,
      then the rest's. */
  lemma KeptRowsCons(row: seq<string>, rest: seq<seq<string>>)
    ensures KeptRows([row] + rest) == (if RowKept(row) then [RowText(row)] else []) + KeptRows(rest)
  {
    assert ([row] + rest)[1..] == rest;
  }

  /** A blank row between two kept rows drops out and the others keep their
      order. */
  lemma KeptRowsOfThree(r0: seq<string>, r1: seq<string>, r2: seq<string>)
    requires RowKept(r0) && !RowKept(r1) && RowKept(r2)
    ensures KeptRows([r0, r1, r2]) == [RowText(r0), RowText(r2)]
  {
    KeptRowsCons(r2, []);
    KeptRowsCons(r1, [r2]);
    KeptRowsCons(r0, [r1, r2]);
    assert [r0, r1, r2] == [r0] + [r1, r2];
  }

  /** A paragraph with no text leaves nothing. */
  lemma BlankParagraphDropped(blank: string)
    requires !HasText(blank)
    ensures KeptParagraphs([blank]) == []
  {
    assert [blank][1..] == [];
  }

  /** The shape of a flattened document: blank paragraphs and rows drop out,
      kept rows follow each other table after table. */
  lemma FlattenShape(blank: string, r0: seq<string>, r1: seq<string>, r2: seq<string>)
    requires !HasText(blank)
    requires exists i :: 0 <= i < |r0| && HasText(r0[i])
    requires forall i :: 0 <= i < |r1| ==> !HasText(r1[i])
    requires exists i :: 0 <= i < |r2| && HasText(r2[i])
    ensures ExtractText(Document([blank], [[r0, r1], [r2]])) == RowText(r0) + "\n" + RowText(r2)
  {
    var doc := Document([blank], [[r0, r1], [r2]]);
    var t0, t2 := RowText(r0), RowText(r2);
    RowKeptIffSomeCellHasText(r0);
    RowKeptIffSomeCellHasText(r1);
    RowKeptIffSomeCellHasText(r2);
    AllRowsOfTwo([r0, r1], [r2]);
    assert [r0, r1] + [r2] == [r0, r1, r2];
    assert AllRows(doc.tables) == [r0, r1, r2];
    KeptRowsOfThree(r0, r1, r2);
    BlankParagraphDropped(blank);
    var kept := KeptRows(AllRows(doc.tables));
    assert kept == [t0, t2];
    assert Units(doc) == [] + kept == [t0, t2];
    JoinTwo("\n", t0, t2);
    assert ExtractText(doc) == Join("\n", [t0, t2]);
  }
}

=== FILE: json_scrape.dfy ===
/** Finding the JSON text inside a free-form model reply: the greedy searches
    `re.search(r'({[\s\S]*})', reply)` and `re.search(r'(\[[\s\S]*\])', reply)`. */
module JsonScrape {
  import opened Results

  /** Position of the first `c` in `s`. */
  function FirstIndex(s: string, c: char): (r: Option<nat>)
    ensures r.Some? ==> r.value < |s| && s[r.value] == c
    ensures r.Some? ==> forall k :: 0 <= k < r.value ==> s[k] != c
    ensures r.None? ==> forall k :: 0 <= k < |s| ==> s[k] != c
  {
    if |s| == 0 then None
    else if s[0] == c then Some(0)
    else match FirstIndex(s[1..], c)
      case Some(i) => Some(i + 1)
      case None => None
  }

  /** Position of the last `c` in `s`. */
  function LastIndex(s: string, c: char): (r: Option<nat>)
    ensures r.Some? ==> r.value < |s| && s[r.value] == c
    ensures r.Some? ==> forall k :: r.value < k < |s| ==> s[k] != c
    ensures r.None? ==> forall k :: 0 <= k < |s| ==> s[k] != c
  {
    if |s| == 0 then None
    else if s[|s| - 1] == c then Some(|s| - 1)
    else LastIndex(s[..|s| - 1], c)
  }

  /** The pattern `(O[\s\S]*C)` matches `s[i..j+1]`: an opener at `i`, a closer
      at `j`, anything in between. */
  ghost predicate IsMatch(s: string, open: char, close: char, i: int, j: int) {
    0 <= i < j < |s| && s[i] == open && s[j] == close
  }

  /** `s[i..j+1]` runs from the first opener to the last closer of `s`. */
  ghost predicate Outermost(s: string, open: char, close: char, i: int, j: int) {
    && IsMatch(s, open, close, i, j)
    && (forall k :: 0 <= k < i ==> s[k] != open)
    && (forall k :: j < k < |s| ==> s[k] != close)
  }

  /** When a match exists, the scraped span is the one from the first opener
      to the last closer. */
  lemma OutermostSpan(s: string, open: char, close: char)
    ensures forall i, j :: Outermost(s, open, close, i, j) ==> Scrape(s, open, close) == Some(s[i..j + 1])
  {
    forall i, j | Outermost(s, open, close, i, j)
      ensures Scrape(s, open, close) == Some(s[i..j + 1])
    {
      ScrapeBounds(s, open, close, i, j);
    }
  }

  /** The bounds `(i, j)` of the match `re.search` reports: the leftmost start,
      and from it the longest (greedy) match. */
  function Search(s: string, open: char, close: char): (r: Option<(nat, nat)>)
    ensures r.Some? <==> exists i, j :: IsMatch(s, open, close, i, j)
    ensures r.Some? ==> IsMatch(s, open, close, r.value.0, r.value.1)
    ensures r.Some? ==> forall i, j :: IsMatch(s, open, close, i, j) ==> r.value.0 <= i && j <= r.value.1
  {
    match (FirstIndex(s, open), LastIndex(s, close))
    case (Some(i), Some(j)) =>
      if i < j then assert IsMatch(s, open, close, i, j); Some((i, j)) else None
    case _ => None
  }

  /** `match.group(1)`, or `None` when the search found nothing. */
  function Scrape(s: string, open: char, close: char): (r: Option<string>)
    ensures r.Some? <==> exists i, j :: IsMatch(s, open, close, i, j)
    ensures r.Some? ==> |r.value| >= 2 && r.value[0] == open && r.value[|r.value| - 1] == close
    ensures r.Some? ==> exists i, j :: IsMatch(s, open, close, i, j) && r.value == s[i..j + 1]
  {
    match Search(s, open, close)
    case Some((i, j)) => Some(s[i..j + 1])
    case None => None
  }

  /** The span from the first `{` to the last `}`: what `analyze_content` and
      `chunked_analysis` hand to `json.loads`. */
  function ObjectSpan(s: string): Option<string> {
    Scrape(s, '{', '}')
  }

  /** The span from the first `[` to the last `]`: what
      `extract_structured_data` hands to `json.loads`. */
  function ArraySpan(s: string): Option<string> {
    Scrape(s, '[', ']')
  }

  /** With the first opener at `i` and the last closer at `j`, the scraped
      span runs from `i` to `j` when `i < j`, and there is none otherwise. */
  lemma ScrapeBounds(s: string, open: char, close: char, i: nat, j: nat)
    requires i < |s| && s[i] == open && forall k :: 0 <= k < i ==> s[k] != open
    requires j < |s| && s[j] == close && forall k :: j < k < |s| ==> s[k] != close
    ensures i < j ==> Scrape(s, open, close) == Some(s[i..j + 1])
    ensures j <= i ==> Scrape(s, open, close) == None
  {
    if j <= i {
      assert forall i', j' :: IsMatch(s, open, close, i', j') ==> i <= i' && j' <= j;
    } else {
      assert IsMatch(s, open, close, i, j);
    }
  }
}

=== FILE: llm_oracle.dfy ===
/** The language model seen from the converter: a prompt goes in, a reply or
    a raised exception comes out. The HTTP clients are not modelled; a run of
    the converter is modelled against an oracle that fixes every reply. */
module LlmOracle {
  import opened Results
  import opened PyValues

  /** A prompt, recorded by the inputs it embeds; its wording is not modelled. */
  datatype Prompt =
      /** `analyze_content`: the first 2000 characters of its text. */
    | AnalyzePrompt(excerpt: string)
      /** `chunked_analysis`: the current table list, the 1-based part number
          and the chunk. */
    | UpdatePrompt(tables: Json, part: nat, chunk: string)
      /** `extract_structured_data`: the table's name, columns and rule, and
          the document text. */
    | ExtractPrompt(name: string, columns: seq<string>, rule: Json, text: string)

  /** `llm.generate`: the reply to the n-th call (counted from 0) with a given
      prompt, or the exception the client raised. */
  type Oracle = (nat, Prompt) -> Result<string, Exc>

  /** `json.loads`: the decoded value, or `None` for a `JSONDecodeError`. */
  type Decoder = string -> Option<Json>

  /** Everything outside the converter that a run depends on. */
  datatype Env = Env(llm: Oracle, decode: Decoder)

  /** A computation's result together with every prompt sent so far, in order. */
  datatype Step<T> = Step(result: Result<T, Exc>, log: seq<Prompt>)

  /** One call of `llm.generate`; the call number is the number of prompts
      already sent. */
  function Generate(env: Env, log: seq<Prompt>, p: Prompt): Step<string> {
    Step(env.llm(|log|, p), log + [p])
  }
}

=== FILE: py_strings.dfy ===
/** The few Python `str` operations the converter relies on: `isspace`,
    `strip`, `sep.join`, `split` and prefix slicing `s[:n]`. */
module PyStrings {

  /** `c.isspace()`: the characters Python's `str.strip()` removes by default. */
  predicate IsSpace(c: char) {
    c == ' ' || ('\U{9}' <= c <= '\U{D}') || ('\U{1C}' <= c <= '\U{1F}')
    || c == '\U{85}' || c == '\U{A0}' || c == '\U{1680}'
    || ('\U{2000}' <= c <= '\U{200A}')
    || c == '\U{2028}' || c == '\U{2029}' || c == '\U{202F}' || c == '\U{205F}' || c == '\U{3000}'
  }

  /** True iff `s` holds a character that is not whitespace. */
  ghost predicate HasText(s: string) {
    exists i :: 0 <= i < |s| && !IsSpace(s[i])
  }

  /** Number of whitespace characters at the front of `s`. */
  function LeadingSpaces(s: string): (n: nat)
    ensures n <= |s|
    ensures forall i :: 0 <= i < n ==> IsSpace(s[i])
    ensures n < |s| ==> !IsSpace(s[n])
  {
    if |s| > 0 && IsSpace(s[0]) then 1 + LeadingSpaces(s[1..]) else 0
  }

  /** Number of whitespace characters at the end of `s`. */
  function TrailingSpaces(s: string): (n: nat)
    ensures n <= |s|
    ensures forall i :: |s| - n <= i < |s| ==> IsSpace(s[i])
    ensures n < |s| ==> !IsSpace(s[|s| - n - 1])
  {
    if |s| > 0 && IsSpace(s[|s| - 1]) then 1 + TrailingSpaces(s[..|s| - 1]) else 0
  }

  /** `s.strip()`: `s` without its leading and trailing whitespace. */
  function Strip(s: string): (r: string)
    ensures |r| <= |s|
    ensures LeadingSpaces(s) + |r| <= |s| && r == s[LeadingSpaces(s)..LeadingSpaces(s) + |r|]
    ensures forall i :: 0 <= i < LeadingSpaces(s) ==> IsSpace(s[i])
    ensures forall i :: LeadingSpaces(s) + |r| <= i < |s| ==> IsSpace(s[i])
    ensures |r| > 0 ==> !IsSpace(r[0]) && !IsSpace(r[|r| - 1])
    ensures |r| == 0 <==> !HasText(s)
  {
    var t := s[LeadingSpaces(s)..];
    var r := t[..|t| - TrailingSpaces(t)];
    assert |r| > 0 ==> r[0] == s[LeadingSpaces(s)];
    assert LeadingSpaces(s) < |s| ==> t[0] == s[LeadingSpaces(s)] && |r| > 0;
    r
  }

  /** Stripping keeps exactly the part of a text between its first and its
      last non-whitespace character. */
  lemma StripBetween(x: string, i: nat, j: nat)
    requires i < j <= |x|
    requires forall k :: 0 <= k < i ==> IsSpace(x[k])
    requires forall k :: j <= k < |x| ==> IsSpace(x[k])
    requires !IsSpace(x[i]) && !IsSpace(x[j - 1])
    ensures Strip(x) == x[i..j]
  {
    var r := Strip(x);
    assert LeadingSpaces(x) == i;
    assert |r| == j - i;
  }

  /** A text made only of whitespace strips to the empty string. */
  lemma StripBlank(s: string)
    requires forall i :: 0 <= i < |s| ==> IsSpace(s[i])
    ensures Strip(s) == ""
  {
  }

  /** Splitting off the head of a non-empty left operand of `+`. */
  lemma ConsSplit<T>(a: seq<T>, b: seq<T>)
    requires |a| > 0
    ensures a == [a[0]] + a[1..]
    ensures a + b == [a[0]] + (a[1..] + b)
  {
  }

  /** `sep.join(parts)`. */
  function Join(sep: string, parts: seq<string>): (r: string)
    ensures |parts| == 0 ==> r == ""
    ensures |parts| > 0 ==> parts[0] <= r
  {
    if |parts| == 0 then ""
    else if |parts| == 1 then parts[0]
    else parts[0] + sep + Join(sep, parts[1..])
  }

  /** Joining one part gives the part itself. */
  lemma JoinOne(sep: string, p: string)
    ensures Join(sep, [p]) == p
  {
  }

  /** Joining two non-empty lists end to end puts exactly one separator
      between the last part of the first and the first part of the second,
      whatever the parts contain. */
  lemma {:induction false} JoinAppend(sep: string, a: seq<string>, b: seq<string>)
    requires |a| > 0 && |b| > 0
    ensures Join(sep, a + b) == Join(sep, a) + sep + Join(sep, b)
    decreases |a|
  {
    assert (a + b)[0] == a[0];
    assert (a + b)[1..] == a[1..] + b;
    if |a| > 1 {
      JoinAppend(sep, a[1..], b);
      assert Join(sep, a + b) == a[0] + sep + (Join(sep, a[1..]) + sep + Join(sep, b));
      assert Join(sep, a) == a[0] + sep + Join(sep, a[1..]);
    }
  }

  /** `s.split(c)` for a one-character separator: the pieces between the
      occurrences of `c`, so one piece more than there are occurrences. */
  function Split(s: string, c: char): (r: seq<string>)
    ensures |r| > 0
    ensures c !in s ==> r == [s]
  {
    if |s| == 0 then [""]
    else
      var rest := Split(s[1..], c);
      if s[0] == c then [""] + rest
      else
        assert c !in s ==> [s[0]] + s[1..] == s;
        [[s[0]] + rest[0]] + rest[1..]
  }

  /** Splitting at the first separator: the piece before it, then the pieces
      of what follows. */
  lemma {:induction false} SplitAtFirst(x: string, c: char, y: string)
    requires c !in x
    ensures Split(x + [c] + y, c) == [x] + Split(y, c)
    decreases |x|
  {
    if |x| == 0 {
      assert x + [c] + y == [c] + y;
      assert ([c] + y)[1..] == y;
    } else {
      assert (x + [c] + y)[1..] == x[1..] + [c] + y;
      SplitAtFirst(x[1..], c, y);
      assert [x[0]] + x[1..] == x;
    }
  }

  /** `split` undoes `join` on the same one-character separator, provided no
      part contains it: the parts come back one for one, in order. */
  lemma {:induction false} SplitJoin(parts: seq<string>, c: char)
    requires |parts| > 0
    requires forall k :: 0 <= k < |parts| ==> c !in parts[k]
    ensures Split(Join([c], parts), c) == parts
    decreases |parts|
  {
    if |parts| > 1 {
      SplitAtFirst(parts[0], c, Join([c], parts[1..]));
      SplitJoin(parts[1..], c);
      assert [parts[0]] + parts[1..] == parts;
    }
  }

  /** `s[:n]`: the first `n` characters, or all of `s` when it is shorter. */
  function Take(s: string, n: nat): (r: string)
    ensures |r| == if |s| < n then |s| else n
    ensures r <= s
  {
    if |s| < n then s else s[..n]
  }
}

=== FILE: py_values.dfy ===
/** The Python values the converter handles after `json.loads`, the
    exceptions it can raise, and the dynamic operations on those values that
    can raise them. */
module PyValues {
  import opened Results

  /** A value `json.loads` can return. Numbers are integers; a JSON object is a
      dict, modelled as a map from its keys to its values. */
  datatype Json =
    | JNull
    | JBool(b: bool)
    | JNum(n: int)
    | JStr(s: string)
    | JArr(items: seq<Json>)
    | JObj(fields: map<string, Json>)

  /** The exceptions that matter to the converter. `ConnectionError` and
      `HttpError` are what the LLM clients raise for an unreachable backend and
      a non-200 response. */
  datatype Exc =
    | JsonDecodeError
    | AttributeError
    | KeyError(key: string)
    | TypeError
    | IndexError
    | ConnectionError
    | HttpError(status: int, body: string)

  /** `v[key]` for a string key: a dict lookup, and a `TypeError` on any other
      value (lists, strings and numbers cannot be indexed by a string). */
  function Subscript(v: Json, key: string): (r: Result<Json, Exc>)
    ensures r.Success? <==> v.JObj? && key in v.fields
    ensures r.Success? ==> r.value == v.fields[key]
    ensures v.JObj? && key !in v.fields ==> r == Failure(KeyError(key))
    ensures !v.JObj? ==> r == Failure(TypeError)
  {
    match v
    case JObj(m) => if key in m then Success(m[key]) else Failure(KeyError(key))
    case _ => Failure(TypeError)
  }

  /** `d.get(key, default)` on a dict. */
  function DictGet(d: map<string, Json>, key: string, default: Json): (r: Json)
    ensures key in d ==> r == d[key]
    ensures key !in d ==> r == default
  {
    if key in d then d[key] else default
  }

  /** The one-character strings a Python `for` loop yields from a string. */
  function Chars(s: string): (r: seq<Json>)
    ensures |r| == |s|
    ensures forall i :: 0 <= i < |s| ==> r[i] == JStr([s[i]])
  {
    seq(|s|, i requires 0 <= i < |s| => JStr([s[i]]))
  }

  /** What a Python `for` loop walks over: a list's items, a string's
      characters, a dict's keys; numbers, booleans and `None` are not
      iterable. A map keeps no key order, so a dict yields one string per key
      without the key's text: every loop of the converter that can meet a dict
      either subscripts the string (`TypeError`), calls `.get` on it
      (`AttributeError`) or, with no columns, never looks at it. */
  function Iterate(v: Json): (r: Result<seq<Json>, Exc>)
    ensures v.JArr? ==> r == Success(v.items)
    ensures v.JStr? ==> r.Success? && |r.value| == |v.s|
    ensures v.JObj? ==> r.Success? && |r.value| == |v.fields|
    ensures (v.JStr? || v.JObj?) ==> forall k :: 0 <= k < |r.value| ==> r.value[k].JStr?
    ensures (v.JNull? || v.JBool? || v.JNum?) ==> r == Failure(TypeError)
  {
    match v
    case JArr(items) => Success(items)
    case JStr(s) => Success(Chars(s))
    case JObj(m) => Success(seq(|m|, _ => JStr("")))
    case _ => Failure(TypeError)
  }

  /** The string keys of a list of strings, as `', '.join(...)` and the sheet
      writer use a column list. */
  function AsStrings(v: Json): (r: Result<seq<string>, Exc>)
    ensures r.Success? <==> v.JArr? && forall i :: 0 <= i < |v.items| ==> v.items[i].JStr?
    ensures r.Success? ==> |r.value| == |v.items| && forall i :: 0 <= i < |r.value| ==> v.items[i] == JStr(r.value[i])
  {
    if v.JArr? && forall i :: 0 <= i < |v.items| ==> v.items[i].JStr? then
      Success(seq(|v.items|, i requires 0 <= i < |v.items| && v.items[i].JStr? => v.items[i].s))
    else Failure(TypeError)
  }

  /** The Python `str` values of a list of strings. */
  function StrList(xs: seq<string>): (r: Json)
    ensures r.JArr? && |r.items| == |xs|
    ensures forall i :: 0 <= i < |xs| ==> r.items[i] == JStr(xs[i])
  {
    JArr(seq(|xs|, i requires 0 <= i < |xs| => JStr(xs[i])))
  }

  /** A list of strings read back from its Python value is itself. */
  lemma AsStringsStrList(xs: seq<string>)
    ensures AsStrings(StrList(xs)) == Success(xs)
  {
    var r := AsStrings(StrList(xs));
    assert r.Success?;
    assert forall i :: 0 <= i < |xs| ==> r.value[i] == xs[i];
    assert r.value == xs;
  }
}

=== FILE: reconciliation.dfy ===
/** Folding the remaining chunks into the first chunk's analysis
    (`chunked_analysis`). */
module Reconciliation {
  import opened Results
  import opened PyStrings
  import opened PyValues
  import opened JsonScrape
  import opened LlmOracle
  import opened TableSpecs
  import opened Chunking
  import opened ContentAnalysis

  /** `[t['name'] for t in items]`. */
  function NamesOf(items: seq<Json>): (r: Result<seq<Json>, Exc>)
    ensures r.Success? <==> forall k :: 0 <= k < |items| ==> HasName(items[k])
    ensures r.Success? ==> |r.value| == |items|
    ensures r.Success? ==> forall k :: 0 <= k < |items| ==> r.value[k] == items[k].fields["name"]
    ensures r.Failure? ==> r.error == KeyError("name") || r.error == TypeError
  {
    if |items| == 0 then Success([])
    else
      var n :- Subscript(items[0], "name");
      var rest :- NamesOf(items[1..]);
      Success([n] + rest)
  }

  /** `existing_names = [t['name'] for t in analysis['tables']]`: the snapshot
      taken before a chunk's update is merged. */
  function Names(tables: Json): Result<seq<Json>, Exc> {
    var items :- Iterate(tables);
    NamesOf(items)
  }

  /** Every proposal is a dict with a `name` key. */
  predicate Named(proposals: seq<Json>) {
    forall k :: 0 <= k < |proposals| ==> HasName(proposals[k])
  }

  /** A non-empty proposal list is named when its head and its tail are. */
  lemma NamedCons(proposals: seq<Json>)
    requires |proposals| > 0
    ensures Named(proposals) <==> HasName(proposals[0]) && Named(proposals[1..])
  {
    if HasName(proposals[0]) && Named(proposals[1..]) {
      forall k | 0 < k < |proposals| ensures HasName(proposals[k]) {
        assert proposals[k] == proposals[1..][k - 1];
      }
    }
  }

  /** The proposals the merge keeps: those whose name is not in `existing`, in
      their proposed order, duplicates among themselves included. */
  function Fresh(proposals: seq<Json>, existing: seq<Json>): (r: seq<Json>)
    requires Named(proposals)
    ensures |r| <= |proposals|
    ensures forall t :: t in r <==> t in proposals && HasName(t) && t.fields["name"] !in existing
  {
    if |proposals| == 0 then []
    else
      assert HasName(proposals[0]);
      (if proposals[0].fields["name"] in existing then [] else [proposals[0]])
      + Fresh(proposals[1..], existing)
  }

  /** Appending a kept proposal and then the rest's fresh ones is appending
      all the fresh ones. */
  lemma FreshCons(items: seq<Json>, proposals: seq<Json>, existing: seq<Json>)
    requires |proposals| > 0 && Named(proposals) && Named(proposals[1..])
    requires proposals[0].fields["name"] !in existing
    ensures items + [proposals[0]] + Fresh(proposals[1..], existing) == items + Fresh(proposals, existing)
  {
    assert Fresh(proposals, existing) == [proposals[0]] + Fresh(proposals[1..], existing);
  }

  /** A proposal whose name is in the snapshot contributes nothing: the
      fresh proposals are the rest's. */
  lemma FreshSkip(proposals: seq<Json>, existing: seq<Json>)
    requires |proposals| > 0 && HasName(proposals[0]) && proposals[0].fields["name"] in existing
    ensures Named(proposals) ==> Named(proposals[1..]) && Fresh(proposals, existing) == Fresh(proposals[1..], existing)
  {
    NamedCons(proposals);
  }

  /** Concatenated proposal lists are all named when each is. */
  lemma NamedAppend(a: seq<Json>, b: seq<Json>)
    requires Named(a) && Named(b)
    ensures Named(a + b)
  {
    forall k | 0 <= k < |a + b| ensures HasName((a + b)[k]) {
      if k >= |a| {
        assert (a + b)[k] == b[k - |a|];
      }
    }
  }

  /** Filtering proposals distributes over concatenation: the kept proposals
      keep their order and their repeats. */
  lemma {:induction false} FreshAppend(a: seq<Json>, b: seq<Json>, existing: seq<Json>)
    requires Named(a) && Named(b)
    ensures Named(a + b) && Fresh(a + b, existing) == Fresh(a, existing) + Fresh(b, existing)
    decreases |a|
  {
    NamedAppend(a, b);
    if |a| == 0 {
      assert a + b == b;
    } else {
      NamedCons(a);
      assert (a + b)[0] == a[0];
      assert (a + b)[1..] == a[1..] + b;
      FreshAppend(a[1..], b, existing);
    }
  }

  /** A single proposal is kept exactly when its name is not in the snapshot. */
  lemma FreshOne(p: Json, existing: seq<Json>)
    requires HasName(p)
    ensures Fresh([p], existing) == if p.fields["name"] in existing then [] else [p]
  {
    assert [p][1..] == [];
  }

  /** Lines 242-244: `for table in proposals: if table['name'] not in
      existing_names: tables.append(table)`. Appending to anything but a list
      raises `AttributeError`; a proposal without a name raises `KeyError` or
      `TypeError`, which the loop's `except` clause does not catch. */
  function AppendNew(tables: Json, proposals: seq<Json>, existing: seq<Json>): (r: Result<Json, Exc>)
    ensures tables.JArr? ==> (r.Success? <==> Named(proposals))
    ensures tables.JArr? && r.Success? ==> r.value == JArr(tables.items + Fresh(proposals, existing))
    ensures !tables.JArr? && r.Success? ==> r.value == tables
    ensures !tables.JArr? && Named(proposals) && |Fresh(proposals, existing)| > 0
      ==> r == Failure(AttributeError)
    ensures tables.JArr? && !Named(proposals) ==> r.Failure? && !Caught(r.error)
    ensures r.Failure? ==> r.error == AttributeError || r.error == KeyError("name") || r.error == TypeError
    ensures r == Failure(AttributeError) ==> !tables.JArr?
    ensures !tables.JArr? && Named(proposals) && |Fresh(proposals, existing)| == 0 ==> r == Success(tables)
    decreases |proposals|
  {
    if |proposals| == 0 then Success(tables)
    else
      var name :- Subscript(proposals[0], "name");
      var rest := proposals[1..];
      NamedCons(proposals);
      if name in existing then
        FreshSkip(proposals, existing);
        AppendNew(tables, rest, existing)
      else match tables
        case JArr(items) =>
          var r := AppendNew(JArr(items + [proposals[0]]), rest, existing);
          if Named(rest) then FreshCons(items, proposals, existing); r else r
        case _ => Failure(AttributeError)
  }

  /** Line 247: `analysis['analysis'] += " " + addition`. A `str` grows by the
      text; a list is extended by its characters; anything else, a missing
      key or a non-string addition raises. */
  function GrowNarrative(analysis: map<string, Json>, addition: Json): (r: Result<Json, Exc>)
    ensures "analysis" !in analysis ==> r == Failure(KeyError("analysis"))
    ensures r.Success? ==> addition.JStr?
    ensures "analysis" in analysis && analysis["analysis"].JStr? && addition.JStr?
      ==> r == Success(JStr(analysis["analysis"].s + " " + addition.s))
    ensures "analysis" in analysis && analysis["analysis"].JArr? && addition.JStr? ==>
      && r.Success? && r.value.JArr? && analysis["analysis"].items <= r.value.items
      && |r.value.items| == |analysis["analysis"].items| + 1 + |addition.s|
      && r.value.items[|analysis["analysis"].items|..] == Chars(" " + addition.s)
    ensures "analysis" in analysis && !analysis["analysis"].JStr? && !analysis["analysis"].JArr? ==> r.Failure?
    ensures "analysis" in analysis && (!addition.JStr? || (!analysis["analysis"].JStr? && !analysis["analysis"].JArr?))
      ==> r == Failure(TypeError)
  {
    if "analysis" !in analysis then Failure(KeyError("analysis"))
    else if !addition.JStr? then Failure(TypeError)
    else match analysis["analysis"]
      case JStr(s) => Success(JStr(s + " " + addition.s))
      case JArr(items) => Success(JArr(items + Chars(" " + addition.s)))
      case _ => Failure(TypeError)
  }

  /** `update.get('tables', [])`: the tables an update proposes. */
  function Proposed(update: map<string, Json>): Json {
    DictGet(update, "tables", JArr([]))
  }

  /** `update.get('analysis', '')`: the narrative an update adds. */
  function Addition(update: map<string, Json>): Json {
    DictGet(update, "analysis", JStr(""))
  }

  /** Lines 240-247: merging a decoded update into the analysis, given the
      analysis's table list. */
  function MergeUpdate(analysis: map<string, Json>, tables: Json, update: Json): (r: Result<Json, Exc>)
    requires "tables" in analysis && analysis["tables"] == tables
    ensures r.Success? ==> update.JObj? && Names(tables).Success? && Iterate(Proposed(update.fields)).Success?
    ensures r.Success? ==> r.value.JObj? && r.value.fields.Keys == analysis.Keys
    ensures r.Success? ==> "analysis" in analysis && (analysis["analysis"].JStr? || analysis["analysis"].JArr?)
    ensures r.Success? ==> forall k :: k in analysis && k != "tables" && k != "analysis" ==> r.value.fields[k] == analysis[k]
    ensures r.Success? && tables.JArr? ==>
      var proposals := Iterate(Proposed(update.fields)).value;
      && Named(proposals)
      && r.value.fields["tables"] == JArr(tables.items + Fresh(proposals, Names(tables).value))
    ensures r.Success? && !tables.JArr? ==> r.value.fields["tables"] == tables
    ensures r.Success? && "analysis" in analysis && analysis["analysis"].JStr? ==>
      && Addition(update.fields).JStr?
      && r.value.fields["analysis"] == JStr(analysis["analysis"].s + " " + Addition(update.fields).s)
    ensures r.Success? && "analysis" in analysis && analysis["analysis"].JArr? ==>
      && Addition(update.fields).JStr?
      && r.value.fields["analysis"] == JArr(analysis["analysis"].items + Chars(" " + Addition(update.fields).s))
    ensures Names(tables).Success? && !update.JObj? ==> r == Failure(AttributeError)
    ensures r.Failure? && Caught(r.error) ==>
      && r.error == AttributeError && Names(tables).Success?
      && (|| !update.JObj?
          || (&& !tables.JArr? && Iterate(Proposed(update.fields)).Success?
              && (Named(Iterate(Proposed(update.fields)).value)
                  ==> |Fresh(Iterate(Proposed(update.fields)).value, Names(tables).value)| > 0)))
    ensures
      && Names(tables).Success? && update.JObj? && Iterate(Proposed(update.fields)).Success?
      && AppendNew(tables, Iterate(Proposed(update.fields)).value, Names(tables).value).Success?
      ==> (r.Failure? <==> GrowNarrative(analysis, Addition(update.fields)).Failure?)
          && (r.Failure? ==> r.error == GrowNarrative(analysis, Addition(update.fields)).error)
    ensures Names(tables).Success? && update.JObj? && Iterate(Proposed(update.fields)).Failure?
      ==> r == Failure(TypeError)
    ensures
      && tables.JArr? && Names(tables).Success? && update.JObj?
      && Iterate(Proposed(update.fields)).Success? && Named(Iterate(Proposed(update.fields)).value)
      && "analysis" in analysis && !Addition(update.fields).JStr?
      ==> r == Failure(TypeError)
    ensures
      && tables.JArr? && Named(tables.items)
      && update.JObj? && Proposed(update.fields).JArr? && Named(Proposed(update.fields).items)
      && "analysis" in analysis && analysis["analysis"].JStr? && Addition(update.fields).JStr?
      ==> r.Success?
  {
    var existing :- Names(tables);
    if !update.JObj? then Failure(AttributeError)
    else
      var proposals :- Iterate(Proposed(update.fields));
      var tables' :- AppendNew(tables, proposals, existing);
      var narrative :- GrowNarrative(analysis, Addition(update.fields));
      Success(JObj(analysis["tables" := tables']["analysis" := narrative]))
  }

  /** The exceptions the loop's `except` clause catches. */
  predicate Caught(e: Exc) {
    e == JsonDecodeError || e == AttributeError
  }

  /** The body of the `try` at lines 237-247 for one reply. */
  function TryUpdate(decode: Decoder, analysis: map<string, Json>, tables: Json, reply: Result<string, Exc>): (r: Result<Json, Exc>)
    requires "tables" in analysis && analysis["tables"] == tables
    ensures reply.Failure? ==> r == Failure(reply.error)
    ensures reply.Success? && (forall i, j :: !IsMatch(reply.value, '{', '}', i, j)) ==> r == Failure(AttributeError)
    ensures reply.Success? ==> forall i, j :: Outermost(reply.value, '{', '}', i, j) ==>
      r == if decode(reply.value[i..j + 1]).Some? then MergeUpdate(analysis, tables, decode(reply.value[i..j + 1]).value)
           else Failure(JsonDecodeError)
    ensures r.Success? ==> exists u :: MergeUpdate(analysis, tables, u) == r
  {
    var text :- reply;
    OutermostSpan(text, '{', '}');
    match ObjectSpan(text)
    case None => Failure(AttributeError)
    case Some(span) =>
      match decode(span)
      case None => Failure(JsonDecodeError)
      case Some(update) => MergeUpdate(analysis, tables, update)
  }

  /** One pass of the loop at lines 226-251 for chunk `chunk`, part `part`: the
      prompt needs `analysis['tables']` before the `try`; inside it a caught
      exception leaves the analysis as it was and any other propagates. */
  function UpdateStep(env: Env, analysis: Json, log: seq<Prompt>, part: nat, chunk: string): (r: Step<Json>)
    ensures Subscript(analysis, "tables").Failure? ==> r == Step(Failure(Subscript(analysis, "tables").error), log)
    ensures Subscript(analysis, "tables").Success? ==>
      r.log == log + [UpdatePrompt(analysis.fields["tables"], part, chunk)]
    ensures Subscript(analysis, "tables").Success? && env.llm(|log|, UpdatePrompt(analysis.fields["tables"], part, chunk)).Failure? ==>
      var e := env.llm(|log|, UpdatePrompt(analysis.fields["tables"], part, chunk)).error;
      r.result == if Caught(e) then Success(analysis) else Failure(e)
    ensures r.result.Success? ==>
      && Subscript(analysis, "tables").Success?
      && (r.result.value == analysis || exists u :: MergeUpdate(analysis.fields, analysis.fields["tables"], u) == Success(r.result.value))
  {
    match Subscript(analysis, "tables")
    case Failure(e) => Step(Failure(e), log)
    case Success(tables) =>
      var reply := Generate(env, log, UpdatePrompt(tables, part, chunk));
      match TryUpdate(env.decode, analysis.fields, tables, reply.result)
      case Success(a) => Step(Success(a), reply.log)
      case Failure(e) => Step(if Caught(e) then Success(analysis) else Failure(e), reply.log)
  }

  /** The step's outcome is the `try` body's: its result when it succeeds or
      raises an exception the `except` clause does not name, and the analysis
      unchanged when it raises `JSONDecodeError` or `AttributeError`. */
  lemma UpdateStepOutcome(env: Env, analysis: Json, log: seq<Prompt>, part: nat, chunk: string)
    requires Subscript(analysis, "tables").Success?
    ensures var t := TryUpdate(env.decode, analysis.fields, analysis.fields["tables"],
                               env.llm(|log|, UpdatePrompt(analysis.fields["tables"], part, chunk)));
      UpdateStep(env, analysis, log, part, chunk).result == if t.Success? || !Caught(t.error) then t else Success(analysis)
  {
  }

  /** A reply whose `{...}` span decodes to an update that merges cleanly is
      merged into the analysis: the step's result is exactly that merge. */
  lemma DecodedUpdateIsMerged(env: Env, analysis: Json, log: seq<Prompt>, part: nat, chunk: string, i: nat, j: nat)
    requires Subscript(analysis, "tables").Success?
    requires var reply := env.llm(|log|, UpdatePrompt(analysis.fields["tables"], part, chunk));
      && reply.Success?
      && Outermost(reply.value, '{', '}', i, j)
      && env.decode(reply.value[i..j + 1]).Some?
      && MergeUpdate(analysis.fields, analysis.fields["tables"], env.decode(reply.value[i..j + 1]).value).Success?
    ensures var reply := env.llm(|log|, UpdatePrompt(analysis.fields["tables"], part, chunk));
      UpdateStep(env, analysis, log, part, chunk).result
      == MergeUpdate(analysis.fields, analysis.fields["tables"], env.decode(reply.value[i..j + 1]).value)
  {
    UpdateStepOutcome(env, analysis, log, part, chunk);
  }

  /** The update step as a value, for `Fold`. */
  function StepOf(env: Env): (Json, seq<Prompt>, nat, string) -> Step<Json> {
    (a: Json, log: seq<Prompt>, part: nat, chunk: string) => UpdateStep(env, a, log, part, chunk)
  }

  /** The loop of lines 226-251 for any step: each chunk's step in turn, with
      part numbers counting up, stopping at the first failure. */
  function Fold(step: (Json, seq<Prompt>, nat, string) -> Step<Json>, analysis: Json, log: seq<Prompt>, chunks: seq<string>, part: nat): Step<Json>
    decreases |chunks|
  {
    if |chunks| == 0 then Step(Success(analysis), log)
    else
      var s := step(analysis, log, part, chunks[0]);
      if s.result.Failure? then s
      else Fold(step, s.result.value, s.log, chunks[1..], part + 1)
  }

  /** Folding `c1 + c2` folds `c1`, then `c2` from where `c1` stopped, for
      any step. */
  lemma {:induction false} FoldAppend(step: (Json, seq<Prompt>, nat, string) -> Step<Json>, analysis: Json, log: seq<Prompt>, c1: seq<string>, c2: seq<string>, part: nat)
    ensures var s := Fold(step, analysis, log, c1, part);
      Fold(step, analysis, log, c1 + c2, part)
      == if s.result.Failure? then s else Fold(step, s.result.value, s.log, c2, part + |c1|)
    decreases |c1|
  {
    if |c1| == 0 {
      assert c1 + c2 == c2;
    } else {
      ConsSplit(c1, c2);
      assert (c1 + c2)[0] == c1[0] && (c1 + c2)[1..] == c1[1..] + c2;
      var s := step(analysis, log, part, c1[0]);
      if s.result.Success? {
        FoldAppend(step, s.result.value, s.log, c1[1..], c2, part + 1);
      }
    }
  }

  /** The loop over `chunks[1:]`, starting at part number `part`: the update
      step folded over the chunks; it stops at the first exception that is
      not caught. */
  function Reconcile(env: Env, analysis: Json, log: seq<Prompt>, chunks: seq<string>, part: nat): (r: Step<Json>)
    ensures log <= r.log && |r.log| <= |log| + |chunks|
    ensures r.result.Success? ==> |r.log| == |log| + |chunks|
  {
    FoldLog(env, analysis, log, chunks, part);
    Fold(StepOf(env), analysis, log, chunks, part)
  }

  /** The update step sends exactly one prompt unless the analysis has no
      `tables` key; so the fold sends at most one prompt per chunk, and
      exactly one per chunk when it completes. */
  lemma {:induction false} FoldLog(env: Env, analysis: Json, log: seq<Prompt>, chunks: seq<string>, part: nat)
    ensures var r := Fold(StepOf(env), analysis, log, chunks, part);
      && log <= r.log && |r.log| <= |log| + |chunks|
      && (r.result.Success? ==> |r.log| == |log| + |chunks|)
    decreases |chunks|
  {
    if |chunks| > 0 {
      var s := UpdateStep(env, analysis, log, part, chunks[0]);
      if s.result.Success? {
        FoldLog(env, s.result.value, s.log, chunks[1..], part + 1);
      }
    }
  }

  /** The fold over one chunk is that chunk's step. */
  lemma ReconcileOne(env: Env, analysis: Json, log: seq<Prompt>, chunk: string, part: nat)
    ensures Reconcile(env, analysis, log, [chunk], part) == UpdateStep(env, analysis, log, part, chunk)
  {
    ReconcileCons(env, analysis, log, chunk, [], part);
    assert [chunk] + [] == [chunk];
  }

  /** One turn of the fold: the head chunk's step, then the fold of the rest
      unless the step raised. */
  lemma ReconcileCons(env: Env, analysis: Json, log: seq<Prompt>, chunk: string, rest: seq<string>, part: nat)
    ensures var s := UpdateStep(env, analysis, log, part, chunk);
      Reconcile(env, analysis, log, [chunk] + rest, part)
      == if s.result.Failure? then s else Reconcile(env, s.result.value, s.log, rest, part + 1)
  {
    assert ([chunk] + rest)[0] == chunk;
    assert ([chunk] + rest)[1..] == rest;
  }

  /** The fold over `c1 + c2` folds `c1` first; an uncaught exception there
      ends it, otherwise `c2` is folded into `c1`'s result with part numbers
      continuing after `c1`'s. */
  lemma ReconcileAppend(env: Env, analysis: Json, log: seq<Prompt>, c1: seq<string>, c2: seq<string>, part: nat)
    ensures var s := Reconcile(env, analysis, log, c1, part);
      Reconcile(env, analysis, log, c1 + c2, part)
      == if s.result.Failure? then s else Reconcile(env, s.result.value, s.log, c2, part + |c1|)
  {
    FoldAppend(StepOf(env), analysis, log, c1, c2, part);
  }

  /** A chunk whose `try` body raises `JSONDecodeError` or `AttributeError`
      is skipped: the loop goes on to the next chunk with the analysis as it
      was, one prompt later. */
  lemma CaughtChunkSkipped(env: Env, analysis: Json, log: seq<Prompt>, chunk: string, rest: seq<string>, part: nat)
    requires Subscript(analysis, "tables").Success?
    requires var t := TryUpdate(env.decode, analysis.fields, analysis.fields["tables"],
                                env.llm(|log|, UpdatePrompt(analysis.fields["tables"], part, chunk)));
      t.Failure? && Caught(t.error)
    ensures Reconcile(env, analysis, log, [chunk] + rest, part)
      == Reconcile(env, analysis, log + [UpdatePrompt(analysis.fields["tables"], part, chunk)], rest, part + 1)
  {
    UpdateStepOutcome(env, analysis, log, part, chunk);
    ReconcileOne(env, analysis, log, chunk, part);
    ReconcileAppend(env, analysis, log, [chunk], rest, part);
  }

  /** `chunked_analysis(text)`: `chunks[0]` raises `IndexError` on an empty
      text; a single chunk's analysis is returned as it is. */
  function ChunkedAnalysis(env: Env, log: seq<Prompt>, text: string): (r: Step<Json>)
    ensures |text| == 0 ==> r == Step(Failure(IndexError), log)
    ensures 0 < |text| <= ChunkSize ==> r == AnalyzeContent(env, log, text)
    ensures |text| > ChunkSize ==>
      var first := AnalyzeContent(env, log, text[..ChunkSize]);
      r == if first.result.Failure? then first
           else Reconcile(env, first.result.value, first.log, Chunks(text[ChunkSize..]), 2)
  {
    ChunksHeadTail(text);
    var chunks := Chunks(text);
    if |chunks| == 0 then Step(Failure(IndexError), log)
    else
      var first := AnalyzeContent(env, log, chunks[0]);
      if first.result.Failure? || |chunks| == 1 then first
      else Reconcile(env, first.result.value, first.log, chunks[1..], 2)
  }

  /** `b` is `a` grown the way reconciliation grows an analysis: a table list
      keeps its tables as a prefix, a narrative string keeps its text as a
      prefix, and no other key changes. */
  ghost predicate Extends(a: Json, b: Json) {
    && a.JObj? && b.JObj?
    && ("tables" in a.fields && a.fields["tables"].JArr? ==>
         "tables" in b.fields && b.fields["tables"].JArr? && a.fields["tables"].items <= b.fields["tables"].items)
    && ("analysis" in a.fields && a.fields["analysis"].JStr? ==>
         "analysis" in b.fields && b.fields["analysis"].JStr? && a.fields["analysis"].s <= b.fields["analysis"].s)
    && forall k :: k in a.fields && k != "tables" && k != "analysis" ==> k in b.fields && b.fields[k] == a.fields[k]
  }

  /** Growing twice is growing once. */
  lemma ExtendsTransitive(a: Json, b: Json, c: Json)
    requires Extends(a, b) && Extends(b, c)
    ensures Extends(a, c)
  {
  }

  /** A merged update only appends tables and only appends narrative. */
  lemma MergeExtends(analysis: map<string, Json>, update: Json, r: Json)
    requires "tables" in analysis
    requires MergeUpdate(analysis, analysis["tables"], update) == Success(r)
    ensures Extends(JObj(analysis), r)
  {
  }

  /** A chunk whose reply has no `{...}` span (the `AttributeError` of
      `None.group`) or whose span does not decode leaves the analysis exactly
      as it was, and the loop goes on. */
  lemma FailedChunkLeavesAnalysis(env: Env, analysis: Json, log: seq<Prompt>, part: nat, chunk: string)
    requires Subscript(analysis, "tables").Success?
    requires env.llm(|log|, UpdatePrompt(analysis.fields["tables"], part, chunk)).Success?
    requires
      var reply := env.llm(|log|, UpdatePrompt(analysis.fields["tables"], part, chunk)).value;
      ObjectSpan(reply).None? || env.decode(ObjectSpan(reply).value).None?
    ensures UpdateStep(env, analysis, log, part, chunk).result == Success(analysis)
  {
  }

  /** Reconciliation is append-only over the whole fold: the tables present
      before remain, unchanged and in order, at the front of the final list,
      and the narrative is never truncated. */
  lemma {:induction false} ReconcileExtends(env: Env, analysis: Json, log: seq<Prompt>, chunks: seq<string>, part: nat)
    requires analysis.JObj?
    requires Reconcile(env, analysis, log, chunks, part).result.Success?
    ensures Extends(analysis, Reconcile(env, analysis, log, chunks, part).result.value)
    decreases |chunks|
  {
    if |chunks| > 0 {
      var s := UpdateStep(env, analysis, log, part, chunks[0]);
      var a := s.result.value;
      if a != analysis {
        var u :| MergeUpdate(analysis.fields, analysis.fields["tables"], u) == Success(a);
        MergeExtends(analysis.fields, u, a);
      }
      ReconcileExtends(env, a, s.log, chunks[1..], part + 1);
      ExtendsTransitive(analysis, a, Reconcile(env, a, s.log, chunks[1..], part + 1).result.value);
    }
  }

  /** From position `from` on, `out` holds one update prompt per chunk, in
      order, each with its chunk and a part number counting up from `part`. */
  ghost predicate UpdatesSent(out: seq<Prompt>, from: nat, chunks: seq<string>, part: nat) {
    && from + |chunks| <= |out|
    && forall i :: from <= i < from + |chunks| ==>
         out[i].UpdatePrompt? && out[i].part == part + (i - from) && out[i].chunk == chunks[i - from]
  }

  /** One update prompt at `from` followed by the prompts for the remaining
      chunks is the prompts for all of them. */
  lemma UpdatesSentCons(out: seq<Prompt>, from: nat, chunks: seq<string>, part: nat)
    requires |chunks| > 0 && from < |out|
    requires out[from].UpdatePrompt? && out[from].part == part && out[from].chunk == chunks[0]
    requires UpdatesSent(out, from + 1, chunks[1..], part + 1)
    ensures UpdatesSent(out, from, chunks, part)
  {
    forall i | from < i < from + |chunks|
      ensures out[i].UpdatePrompt? && out[i].part == part + (i - from) && out[i].chunk == chunks[i - from]
    {
      assert chunks[1..][i - (from + 1)] == chunks[i - from];
    }
  }

  /** A completed fold sent one update prompt per chunk, in order, each with
      its chunk and its part number, after the prompts already sent. */
  lemma {:induction false} ReconcilePrompts(env: Env, analysis: Json, log: seq<Prompt>, chunks: seq<string>, part: nat)
    requires Reconcile(env, analysis, log, chunks, part).result.Success?
    ensures |Reconcile(env, analysis, log, chunks, part).log| == |log| + |chunks|
    ensures log <= Reconcile(env, analysis, log, chunks, part).log
    ensures UpdatesSent(Reconcile(env, analysis, log, chunks, part).log, |log|, chunks, part)
    decreases |chunks|
  {
    if |chunks| > 0 {
      var s := UpdateStep(env, analysis, log, part, chunks[0]);
      assert s.result.Success?;
      assert s.log == log + [UpdatePrompt(analysis.fields["tables"], part, chunks[0])];
      var out := Reconcile(env, analysis, log, chunks, part).log;
      assert out == Reconcile(env, s.result.value, s.log, chunks[1..], part + 1).log;
      ReconcilePrompts(env, s.result.value, s.log, chunks[1..], part + 1);
      assert out[|log|] == s.log[|log|];
      UpdatesSentCons(out, |log|, chunks, part);
    }
  }

  /** An empty text raises `IndexError` at `chunks[0]` before any prompt. */
  lemma EmptyTextRaises(env: Env, log: seq<Prompt>)
    ensures ChunkedAnalysis(env, log, "") == Step(Failure(IndexError), log)
  {
  }

  /** A text of one chunk skips reconciliation: the result is the analyzer's,
      unchanged, after exactly one prompt holding the whole text. */
  lemma SingleChunkIsAnalysis(env: Env, log: seq<Prompt>, text: string)
    requires 0 < |text| <= ChunkSize
    ensures ChunkedAnalysis(env, log, text) == AnalyzeContent(env, log, text)
    ensures ChunkedAnalysis(env, log, text).log == log + [AnalyzePrompt(text)]
  {
    assert Chunks(text)[0] == text[0..|text|] == text;
  }

  /** A completed chunked analysis sent the first chunk to the analyzer and
      every later chunk, in order, to an update prompt numbered from 2; with
      `ChunksPartition` the prompts cover the whole text. */
  lemma ChunkedAnalysisPrompts(env: Env, log: seq<Prompt>, text: string)
    requires ChunkedAnalysis(env, log, text).result.Success?
    ensures |Chunks(text)| > 0
    ensures |ChunkedAnalysis(env, log, text).log| == |log| + |Chunks(text)|
    ensures log + [AnalyzePrompt(Chunks(text)[0])] <= ChunkedAnalysis(env, log, text).log
    ensures UpdatesSent(ChunkedAnalysis(env, log, text).log, |log| + 1, Chunks(text)[1..], 2)
  {
    var chunks := Chunks(text);
    var out := ChunkedAnalysis(env, log, text).log;
    assert |chunks| > 0;
    assert Take(chunks[0], ExcerptLength) == chunks[0];
    var first := AnalyzeContent(env, log, chunks[0]);
    assert first.log == log + [AnalyzePrompt(chunks[0])];
    if |chunks| > 1 {
      assert first.result.Success?;
      assert out == Reconcile(env, first.result.value, first.log, chunks[1..], 2).log;
      ReconcilePrompts(env, first.result.value, first.log, chunks[1..], 2);
    } else {
      assert out == first.log;
    }
  }

  /** The merge compares against the snapshot taken before the update, so two
      proposals sharing a name that is new are both appended. */
  lemma SnapshotAppendsBothNewTwins(items: seq<Json>, t1: Json, t2: Json, existing: seq<Json>)
    requires HasName(t1) && HasName(t2) && t1.fields["name"] == t2.fields["name"]
    requires t1.fields["name"] !in existing
    ensures AppendNew(JArr(items), [t1, t2], existing) == Success(JArr(items + [t1, t2]))
  {
    assert [t1, t2][1..] == [t2];
    assert [t2][1..] == [];
    assert AppendNew(JArr(items + [t1] + [t2]), [], existing) == Success(JArr(items + [t1] + [t2]));
    assert AppendNew(JArr(items + [t1]), [t2], existing) == Success(JArr(items + [t1] + [t2]));
    assert items + [t1] + [t2] == items + [t1, t2];
  }

  /** A table whose name was present before an update is never appended by
      it: the update cannot duplicate a name already in the list. */
  lemma PresentNameNotAppended(items: seq<Json>, proposals: seq<Json>, k: nat)
    requires NamesOf(items).Success? && k < |items|
    requires AppendNew(JArr(items), proposals, NamesOf(items).value).Success?
    ensures var after := AppendNew(JArr(items), proposals, NamesOf(items).value).value.items;
      && items <= after
      && forall t :: t in after[|items|..] ==> HasName(t) && t.fields["name"] != items[k].fields["name"]
  {
    var names := NamesOf(items).value;
    assert names[k] == items[k].fields["name"];
    var after := AppendNew(JArr(items), proposals, names).value.items;
    assert after[|items|..] == Fresh(proposals, names);
  }

  /** Proposals whose names are all already present contribute nothing. */
  lemma NothingFresh(proposals: seq<Json>, existing: seq<Json>)
    requires forall k :: 0 <= k < |proposals| ==> HasName(proposals[k]) && proposals[k].fields["name"] in existing
    ensures Fresh(proposals, existing) == []
  {
  }

  /** After a merge, every proposal's name is among the merged list's names. */
  lemma MergedNamesCoverProposals(items: seq<Json>, proposals: seq<Json>, names: seq<Json>, after: seq<Json>, names1: seq<Json>)
    requires forall k :: 0 <= k < |proposals| ==> HasName(proposals[k])
    requires |names| == |items| && forall k :: 0 <= k < |items| ==> HasName(items[k]) && names[k] == items[k].fields["name"]
    requires after == items + Fresh(proposals, names)
    requires |names1| == |after| && forall k :: 0 <= k < |after| ==> HasName(after[k]) && names1[k] == after[k].fields["name"]
    ensures forall k :: 0 <= k < |proposals| ==> proposals[k].fields["name"] in names1
  {
    var added := Fresh(proposals, names);
    forall k | 0 <= k < |proposals| ensures proposals[k].fields["name"] in names1 {
      var t := proposals[k];
      if t.fields["name"] in names {
        var m :| 0 <= m < |names| && names[m] == t.fields["name"];
        assert after[m] == items[m];
        assert names1[m] == t.fields["name"];
      } else {
        assert t in added;
        var m :| 0 <= m < |added| && added[m] == t;
        assert after[|items| + m] == t;
        assert names1[|items| + m] == t.fields["name"];
      }
    }
  }

  /** Proposing the same tables again after they were merged appends nothing. */
  lemma ReproposingAppendsNothing(items: seq<Json>, proposals: seq<Json>)
    requires NamesOf(items).Success?
    requires AppendNew(JArr(items), proposals, NamesOf(items).value).Success?
    ensures var after := AppendNew(JArr(items), proposals, NamesOf(items).value).value.items;
      && NamesOf(after).Success?
      && AppendNew(JArr(after), proposals, NamesOf(after).value) == Success(JArr(after))
  {
    var names := NamesOf(items).value;
    var added := Fresh(proposals, names);
    var after := items + added;
    assert AppendNew(JArr(items), proposals, names).value.items == after;
    forall k | 0 <= k < |after| ensures HasName(after[k]) {
      if k < |items| { assert after[k] == items[k]; } else { assert after[k] in added; }
    }
    var names1 := NamesOf(after).value;
    MergedNamesCoverProposals(items, proposals, names, after, names1);
    NothingFresh(proposals, names1);
    assert after + [] == after;
  }
}

=== FILE: results.dfy ===
/** Failure-compatible wrappers shared by the whole model. */
module Results {

  /** A value that may be absent: the `None` of a failed lookup or decode. */
  datatype Option<+T> = None | Some(value: T) {

    predicate IsFailure() {
      None?
    }

    function PropagateFailure<U>(): Option<U>
      requires None?
    {
      None
    }

    function Extract(): T
      requires Some?
    {
      value
    }

    /** The wrapped value, or `default` when there is none. */
    function GetOr(default: T): (r: T)
      ensures Some? ==> r == value
      ensures None? ==> r == default
    {
      match this
      case Some(v) => v
      case None => default
    }
  }

  /** The outcome of a computation that may raise: a value or the raised error. */
  datatype Result<+T, +E> = Success(value: T) | Failure(error: E) {

    predicate IsFailure() {
      Failure?
    }

    function PropagateFailure<U>(): Result<U, E>
      requires Failure?
    {
      Failure(error)
    }

    function Extract(): T
      requires Success?
    {
      value
    }
  }
}

=== FILE: row_extraction.dfy ===
/** Extracting the rows of one proposed table from the whole document text
    (`extract_structured_data`). */
module RowExtraction {
  import opened Results
  import opened PyValues
  import opened JsonScrape
  import opened LlmOracle
  import opened TableSpecs

  /** The sentinel value written for column `col` when extraction fails. */
  function SentinelText(col: string): string {
    "Error extracting " + col
  }

  /** `[{col: f"Error extracting {col}" for col in columns}]`: one record that
      maps every column to its sentinel. */
  function SentinelRows(columns: seq<string>): (r: Json)
    ensures r.JArr? && |r.items| == 1 && r.items[0].JObj?
    ensures r.items[0].fields.Keys == set c | c in columns
    ensures forall c :: c in columns ==> r.items[0].fields[c] == JStr(SentinelText(c))
  {
    JArr([JObj(map c | c in columns :: JStr(SentinelText(c)))])
  }

  /** The value `extract_structured_data` returns for a reply: the array span
      decoded when there is one, the whole reply decoded only when there is
      none, and the sentinel record when that one decode fails. */
  function ParseRows(decode: Decoder, reply: string, columns: seq<string>): (r: Json)
    ensures (forall i, j :: !IsMatch(reply, '[', ']', i, j)) ==> r == decode(reply).GetOr(SentinelRows(columns))
    ensures forall i, j :: Outermost(reply, '[', ']', i, j) ==> r == decode(reply[i..j + 1]).GetOr(SentinelRows(columns))
  {
    OutermostSpan(reply, '[', ']');
    match ArraySpan(reply)
    case Some(span) => decode(span).GetOr(SentinelRows(columns))
    case None => decode(reply).GetOr(SentinelRows(columns))
  }

  /** `extract_structured_data(text, spec)`: one prompt with the schema and the
      text it is given; an exception from the client propagates. */
  function ExtractRows(env: Env, log: seq<Prompt>, text: string, spec: TableSpec): (r: Step<Json>)
    ensures r.log == log + [ExtractPrompt(spec.name, spec.columns, spec.rule, text)]
    ensures env.llm(|log|, ExtractPrompt(spec.name, spec.columns, spec.rule, text)).Failure? ==>
      r.result == Failure(env.llm(|log|, ExtractPrompt(spec.name, spec.columns, spec.rule, text)).error)
    ensures env.llm(|log|, ExtractPrompt(spec.name, spec.columns, spec.rule, text)).Success? ==>
      r.result == Success(ParseRows(env.decode, env.llm(|log|, ExtractPrompt(spec.name, spec.columns, spec.rule, text)).value, spec.columns))
  {
    var reply := Generate(env, log, ExtractPrompt(spec.name, spec.columns, spec.rule, text));
    match reply.result
    case Failure(e) => Step(Failure(e), reply.log)
    case Success(s) => Step(Success(ParseRows(env.decode, s, spec.columns)), reply.log)
  }

  /** For columns `["A", "B"]` an undecodable array span gives exactly the one
      record `{"A": "Error extracting A", "B": "Error extracting B"}`; the whole
      reply is not tried instead. */
  lemma UndecodableSpanGivesSentinel(decode: Decoder, reply: string)
    requires ArraySpan(reply).Some? && decode(ArraySpan(reply).value).None?
    ensures ParseRows(decode, reply, ["A", "B"])
         == JArr([JObj(map["A" := JStr("Error extracting A"), "B" := JStr("Error extracting B")])])
  {
    var m := SentinelRows(["A", "B"]).items[0].fields;
    assert m.Keys == {"A", "B"};
    assert SentinelText("A") == "Error extracting A" && SentinelText("B") == "Error extracting B";
    assert m["A"] == JStr("Error extracting A") && m["B"] == JStr("Error extracting B");
    assert m == map["A" := JStr("Error extracting A"), "B" := JStr("Error extracting B")];
  }
}

=== FILE: sheet_layout.dfy ===
/** Laying out one worksheet per proposed table and running the whole
    conversion (`convert_to_excel`); the workbook is the list of sheets handed
    to the spreadsheet library. */
module SheetLayout {
  import opened Results
  import opened PyStrings
  import opened PyValues
  import opened LlmOracle
  import opened TableSpecs
  import opened DocText
  import opened Chunking
  import opened Reconciliation
  import opened RowExtraction

  /** The longest sheet title the spreadsheet format allows. */
  const TitleLimit: nat := 31

  /** A worksheet: its title and its rows of cell values, header row first. */
  datatype Sheet = Sheet(title: string, rows: seq<seq<Json>>)

  /** `name[:31]`. */
  function Title(name: string): (r: string)
    ensures |r| <= TitleLimit && r <= name
    ensures |name| <= TitleLimit ==> r == name
    ensures |name| > TitleLimit ==> |r| == TitleLimit
  {
    Take(name, TitleLimit)
  }

  /** Row 1: the column names, in order. */
  function HeaderRow(columns: seq<string>): (r: seq<Json>)
    ensures |r| == |columns| && forall j :: 0 <= j < |columns| ==> r[j] == JStr(columns[j])
  {
    StrList(columns).items
  }

  /** `[record.get(col, "") for col in columns]`: cell `j` is the record's
      value for column `j`, or the empty string; keys that are not columns are
      dropped. A record that is not a dict raises `AttributeError` as soon as
      there is a column to look up. */
  function RowOf(columns: seq<string>, record: Json): (r: Result<seq<Json>, Exc>)
    ensures |columns| == 0 ==> r == Success([])
    ensures |columns| > 0 ==> (r.Success? <==> record.JObj?)
    ensures r.Success? ==> |r.value| == |columns|
    ensures r.Success? && |columns| > 0 ==> forall j :: 0 <= j < |columns| ==>
      r.value[j] == if columns[j] in record.fields then record.fields[columns[j]] else JStr("")
  {
    if |columns| == 0 then Success([])
    else if !record.JObj? then Failure(AttributeError)
    else Success(seq(|columns|, j requires 0 <= j < |columns| => DictGet(record.fields, columns[j], JStr(""))))
  }

  /** The rows of all records, in order; the first record that cannot be laid
      out raises. */
  function RowsOf(columns: seq<string>, records: seq<Json>): (r: Result<seq<seq<Json>>, Exc>)
    ensures r.Success? <==> forall k :: 0 <= k < |records| ==> RowOf(columns, records[k]).Success?
    ensures r.Success? ==> |r.value| == |records|
    ensures r.Success? ==> forall k :: 0 <= k < |records| ==> RowOf(columns, records[k]) == Success(r.value[k])
  {
    if |records| == 0 then Success([])
    else
      var row :- RowOf(columns, records[0]);
      var rest :- RowsOf(columns, records[1..]);
      assert forall k :: 1 <= k < |records| ==> records[1..][k - 1] == records[k];
      Success([row] + rest)
  }

  /** Lines 276-285: the sheet for one table, given the extracted value:
      title, header row, then record `k` as row `k + 2` (index `k + 1`). */
  function LayoutSheet(spec: TableSpec, data: Json): (r: Result<Sheet, Exc>)
    ensures r.Success? ==> r.value.title == Title(spec.name) && |r.value.rows| >= 1
    ensures r.Success? ==> r.value.rows[0] == HeaderRow(spec.columns)
    ensures r.Success? ==> Iterate(data).Success? && |r.value.rows| == 1 + |Iterate(data).value|
    ensures r.Success? ==> forall k :: 0 <= k < |Iterate(data).value| ==>
      RowOf(spec.columns, Iterate(data).value[k]) == Success(r.value.rows[k + 1])
    ensures data.JArr? ==> (r.Success? <==> |spec.columns| == 0 || forall k :: 0 <= k < |data.items| ==> data.items[k].JObj?)
    ensures |spec.columns| == 0 ==> (r.Success? <==> Iterate(data).Success?)
  {
    var records :- Iterate(data);
    var rows :- RowsOf(spec.columns, records);
    Success(Sheet(Title(spec.name), [HeaderRow(spec.columns)] + rows))
  }

  /** `sheet` carries the schema's title and, as its first row, its header
      row. */
  predicate Headed(spec: TableSpec, sheet: Sheet) {
    sheet.title == Title(spec.name) && |sheet.rows| >= 1 && sheet.rows[0] == HeaderRow(spec.columns)
  }

  /** The extraction prompt for a schema over `text`. */
  function PromptFor(spec: TableSpec, text: string): Prompt {
    ExtractPrompt(spec.name, spec.columns, spec.rule, text)
  }

  /** The extraction prompts for a list of schemas, in order. */
  function PromptsFor(specs: seq<TableSpec>, text: string): (r: seq<Prompt>)
    ensures |r| == |specs| && forall k :: 0 <= k < |specs| ==> r[k] == PromptFor(specs[k], text)
  {
    if |specs| == 0 then [] else [PromptFor(specs[0], text)] + PromptsFor(specs[1..], text)
  }

  /** Every table's schema, read in order; the first that cannot be read
      raises. */
  function ReadAll(tables: seq<Json>): (r: Result<seq<TableSpec>, Exc>)
    ensures r.Success? <==> forall k :: 0 <= k < |tables| ==> ReadSpec(tables[k]).Success?
    ensures r.Success? ==> |r.value| == |tables| && forall k :: 0 <= k < |tables| ==> ReadSpec(tables[k]) == Success(r.value[k])
  {
    if |tables| == 0 then Success([])
    else
      var spec :- ReadSpec(tables[0]);
      var rest :- ReadAll(tables[1..]);
      assert forall k :: 1 <= k < |tables| ==> tables[1..][k - 1] == tables[k];
      Success([spec] + rest)
  }

  /** One pass of the loop over `analysis['tables']` (lines 271-285): read
      the table's schema, extract its rows from the full text with one prompt,
      and lay out its sheet. */
  function WriteTable(env: Env, log: seq<Prompt>, text: string, t: Json): (r: Step<Sheet>)
    ensures log <= r.log
    ensures ReadSpec(t).Failure? ==> r == Step(Failure(ReadSpec(t).error), log)
    ensures ReadSpec(t).Success? ==> r.log == log + [PromptFor(ReadSpec(t).value, text)]
    ensures r.result.Success? ==> ReadSpec(t).Success? && Headed(ReadSpec(t).value, r.result.value)
    ensures ReadSpec(t).Success? ==>
      var spec := ReadSpec(t).value;
      var reply := env.llm(|log|, PromptFor(spec, text));
      r.result == if reply.Failure? then Failure(reply.error)
                  else LayoutSheet(spec, ParseRows(env.decode, reply.value, spec.columns))
  {
    match ReadSpec(t)
    case Failure(e) => Step(Failure(e), log)
    case Success(spec) =>
      var data := ExtractRows(env, log, text, spec);
      match data.result
      case Failure(e) => Step(Failure(e), data.log)
      case Success(value) => Step(LayoutSheet(spec, value), data.log)
  }

  /** The loop over `analysis['tables']`: one sheet per table, in order, each
      with its schema's title and header row, after one extraction prompt per
      table over the text given; the first table that cannot be written
      aborts the conversion. */
  function WriteTables(env: Env, log: seq<Prompt>, text: string, tables: seq<Json>): (r: Step<seq<Sheet>>)
    ensures log <= r.log
    ensures r.result.Success? ==> ReadAll(tables).Success? && |r.result.value| == |tables|
    ensures r.result.Success? ==> r.log == log + PromptsFor(ReadAll(tables).value, text)
    ensures r.result.Success? ==> forall k :: 0 <= k < |tables| ==> Headed(ReadAll(tables).value[k], r.result.value[k])
    decreases |tables|
  {
    if |tables| == 0 then Step(Success([]), log)
    else
      var first := WriteTable(env, log, text, tables[0]);
      match first.result
      case Failure(e) => Step(Failure(e), first.log)
      case Success(sheet) =>
        var rest := WriteTables(env, first.log, text, tables[1..]);
        match rest.result
        case Failure(e) => Step(Failure(e), rest.log)
        case Success(sheets) =>
          var specs := ReadAll(tables).value;
          var later := PromptsFor(specs[1..], text);
          assert specs == [ReadSpec(tables[0]).value] + ReadAll(tables[1..]).value;
          assert specs[1..] == ReadAll(tables[1..]).value;
          assert first.log == log + [PromptFor(specs[0], text)];
          assert PromptsFor(specs, text) == [PromptFor(specs[0], text)] + later;
          AppendAssoc(log, [PromptFor(specs[0], text)], later);
          Step(Success([sheet] + sheets), rest.log)
  }

  /** Regrouping a concatenation; a separate lemma, so that the loop's body
      does not prove it in its own heavy context. */
  lemma AppendAssoc<T>(a: seq<T>, b: seq<T>, c: seq<T>)
    ensures a + (b + c) == (a + b) + c
  {
  }

  /** The loop over one table writes that table: its sheet, or its
      exception, after its prompt. */
  lemma WriteTablesOne(env: Env, log: seq<Prompt>, text: string, t: Json)
    ensures var w := WriteTable(env, log, text, t);
      WriteTables(env, log, text, [t])
      == Step(if w.result.Failure? then Failure(w.result.error) else Success([w.result.value]), w.log)
  {
    assert [t][1..] == [];
    var w := WriteTable(env, log, text, t);
    if w.result.Success? {
      assert [w.result.value] + [] == [w.result.value];
    }
  }

  /** The loop over `t1 + t2` writes `t1` first; an exception there ends it,
      otherwise `t2` is written after `t1`'s prompts and its sheets follow
      `t1`'s. */
  lemma {:induction false} WriteTablesAppend(env: Env, log: seq<Prompt>, text: string, t1: seq<Json>, t2: seq<Json>)
    ensures var s := WriteTables(env, log, text, t1);
      var w := WriteTables(env, log, text, t1 + t2);
      && (s.result.Failure? ==> w == s)
      && (s.result.Success? ==>
            var u := WriteTables(env, s.log, text, t2);
            && w.log == u.log
            && w.result == if u.result.Failure? then u.result else Success(s.result.value + u.result.value))
    decreases |t1|
  {
    if |t1| == 0 {
      assert t1 + t2 == t2;
      var u := WriteTables(env, log, text, t2);
      if u.result.Success? {
        assert [] + u.result.value == u.result.value;
      }
    } else {
      var t, rest := t1[0], t1[1..];
      ConsSplit(t1, t2);
      WriteTablesStep(env, log, text, t, rest);
      WriteTablesStep(env, log, text, t, rest + t2);
      var first := WriteTable(env, log, text, t);
      if first.result.Success? {
        WriteTablesAppend(env, first.log, text, rest, t2);
        var r := WriteTables(env, first.log, text, rest);
        if r.result.Success? {
          var u := WriteTables(env, r.log, text, t2);
          if u.result.Success? {
            AppendAssoc([first.result.value], r.result.value, u.result.value);
          }
        }
      }
    }
  }

  /** One turn of the table loop: the head table is written, then the rest
      unless the head raised. */
  lemma WriteTablesStep(env: Env, log: seq<Prompt>, text: string, t: Json, rest: seq<Json>)
    ensures var first := WriteTable(env, log, text, t);
      var w := WriteTables(env, log, text, [t] + rest);
      && (first.result.Failure? ==> w == Step(Failure(first.result.error), first.log))
      && (first.result.Success? ==>
            var r := WriteTables(env, first.log, text, rest);
            w == Step(if r.result.Failure? then r.result else Success([first.result.value] + r.result.value), r.log))
  {
    assert ([t] + rest)[0] == t;
    assert ([t] + rest)[1..] == rest;
  }

  /** The prompts for the first `k` schemas are the first schema's prompt
      followed by those for the next `k - 1`. */
  lemma PromptsForPrefix(specs: seq<TableSpec>, text: string, k: nat)
    requires 0 < k <= |specs|
    ensures PromptsFor(specs[..k], text) == [PromptFor(specs[0], text)] + PromptsFor(specs[1..][..k - 1], text)
  {
    assert specs[..k][0] == specs[0];
    assert specs[..k][1..] == specs[1..][..k - 1];
  }

  /** One turn of a completed table loop: table 0 was written first, and the
      remaining tables were written after its prompt. */
  lemma WriteTablesCons(env: Env, log: seq<Prompt>, text: string, tables: seq<Json>)
    requires |tables| > 0 && WriteTables(env, log, text, tables).result.Success?
    ensures var first := WriteTable(env, log, text, tables[0]);
      var rest := WriteTables(env, first.log, text, tables[1..]);
      && first.result.Success? && rest.result.Success?
      && WriteTables(env, log, text, tables).result.value == [first.result.value] + rest.result.value
      && ReadAll(tables).value[1..] == ReadAll(tables[1..]).value
      && first.log == log + [PromptFor(ReadAll(tables).value[0], text)]
  {
    var specs := ReadAll(tables).value;
    assert specs == [ReadSpec(tables[0]).value] + ReadAll(tables[1..]).value;
  }

  /** In a completed table loop, sheet `k` is exactly what writing table `k`
      alone gives, once the prompts for the tables before it have been sent. */
  lemma WriteTablesSheet(env: Env, log: seq<Prompt>, text: string, tables: seq<Json>, k: nat)
    requires WriteTables(env, log, text, tables).result.Success?
    requires k < |tables|
    ensures WriteTable(env, log + PromptsFor(ReadAll(tables).value[..k], text), text, tables[k]).result
      == Success(WriteTables(env, log, text, tables).result.value[k])
  {
    WriteTablesSheetAt(env, log, text, tables, k, log + PromptsFor(ReadAll(tables).value[..k], text));
  }

  /** `WriteTablesSheet` with the log before table `k` given by name. */
  lemma {:induction false} WriteTablesSheetAt(env: Env, log: seq<Prompt>, text: string, tables: seq<Json>, k: nat, before: seq<Prompt>)
    requires WriteTables(env, log, text, tables).result.Success?
    requires k < |tables|
    requires before == log + PromptsFor(ReadAll(tables).value[..k], text)
    ensures WriteTable(env, before, text, tables[k]).result == Success(WriteTables(env, log, text, tables).result.value[k])
    decreases k
  {
    if k == 0 {
      WriteTablesFirst(env, log, text, tables);
    } else {
      var first := WriteTable(env, log, text, tables[0]);
      WriteTablesShift(env, log, text, tables, k);
      WriteTablesNext(env, log, text, tables, k);
      WriteTablesSheetAt(env, first.log, text, tables[1..], k - 1, before);
    }
  }

  /** Table 0 of the loop is written with the log as it was before the loop. */
  lemma WriteTablesFirst(env: Env, log: seq<Prompt>, text: string, tables: seq<Json>)
    requires WriteTables(env, log, text, tables).result.Success? && |tables| > 0
    ensures WriteTable(env, log + PromptsFor(ReadAll(tables).value[..0], text), text, tables[0]).result
      == Success(WriteTables(env, log, text, tables).result.value[0])
  {
    WriteTablesCons(env, log, text, tables);
    assert log + PromptsFor(ReadAll(tables).value[..0], text) == log;
  }

  /** Table `k > 0` of the loop is table `k - 1` of the loop that starts
      after table 0, with the same log before it. */
  lemma WriteTablesShift(env: Env, log: seq<Prompt>, text: string, tables: seq<Json>, k: nat)
    requires WriteTables(env, log, text, tables).result.Success?
    requires 0 < k < |tables|
    ensures log + PromptsFor(ReadAll(tables).value[..k], text)
      == WriteTable(env, log, text, tables[0]).log + PromptsFor(ReadAll(tables[1..]).value[..k - 1], text)
    ensures tables[1..][k - 1] == tables[k]
  {
    WriteTablesCons(env, log, text, tables);
    LogShift(log, ReadAll(tables).value, text, k);
  }

  /** Sheet `k > 0` of the loop is sheet `k - 1` of the loop that starts
      after table 0. */
  lemma WriteTablesNext(env: Env, log: seq<Prompt>, text: string, tables: seq<Json>, k: nat)
    requires WriteTables(env, log, text, tables).result.Success?
    requires 0 < k < |tables|
    ensures var rest := WriteTables(env, WriteTable(env, log, text, tables[0]).log, text, tables[1..]);
      && rest.result.Success? && |rest.result.value| == |tables| - 1
      && WriteTables(env, log, text, tables).result.value[k] == rest.result.value[k - 1]
  {
    WriteTablesCons(env, log, text, tables);
  }

  /** Every sheet of a completed table loop, as `WriteTablesSheet` states it
      for one. */
  lemma WriteTablesSheets(env: Env, log: seq<Prompt>, text: string, tables: seq<Json>)
    requires WriteTables(env, log, text, tables).result.Success?
    ensures forall k :: 0 <= k < |tables| ==>
      WriteTable(env, log + PromptsFor(ReadAll(tables).value[..k], text), text, tables[k]).result
      == Success(WriteTables(env, log, text, tables).result.value[k])
  {
    forall k | 0 <= k < |tables|
      ensures WriteTable(env, log + PromptsFor(ReadAll(tables).value[..k], text), text, tables[k]).result
        == Success(WriteTables(env, log, text, tables).result.value[k])
    {
      WriteTablesSheet(env, log, text, tables, k);
    }
  }

  /** The log before table `k` is the log after table 0 followed by the
      prompts of tables 1 to `k - 1`. */
  lemma LogShift(log: seq<Prompt>, specs: seq<TableSpec>, text: string, k: nat)
    requires 0 < k <= |specs|
    ensures log + PromptsFor(specs[..k], text) == (log + [PromptFor(specs[0], text)]) + PromptsFor(specs[1..][..k - 1], text)
  {
    PromptsForPrefix(specs, text, k);
    var later := PromptsFor(specs[1..][..k - 1], text);
    assert log + ([PromptFor(specs[0], text)] + later) == (log + [PromptFor(specs[0], text)]) + later;
  }

  /** `wb.save(excel_path)` (line 288). The default sheet was removed at line
      268, and the spreadsheet library refuses to save a workbook without a
      visible sheet (`IndexError("At least one sheet must be visible")`); any
      other workbook is saved as written. */
  function Save(w: Step<seq<Sheet>>): (r: Step<seq<Sheet>>)
    ensures r.log == w.log
    ensures r.result.Success? <==> w.result.Success? && |w.result.value| > 0
    ensures r.result.Success? || w.result.Failure? ==> r == w
    ensures w.result == Success([]) ==> r.result == Failure(IndexError)
  {
    if w.result.Success? && |w.result.value| == 0 then Step(Failure(IndexError), w.log) else w
  }

  /** `convert_to_excel`: flatten the document, analyze it chunk by chunk,
      write one sheet per table of the final analysis, then save. */
  function ConvertToExcel(env: Env, log: seq<Prompt>, doc: Document): (r: Step<seq<Sheet>>)
    ensures ExtractText(doc) == "" ==> r == Step(Failure(IndexError), log)
    ensures ChunkedAnalysis(env, log, ExtractText(doc)).log <= r.log
    ensures var a := ChunkedAnalysis(env, log, ExtractText(doc));
      a.result.Failure? ==> r == Step(Failure(a.result.error), a.log)
    ensures var a := ChunkedAnalysis(env, log, ExtractText(doc));
      a.result.Success? && Subscript(a.result.value, "tables").Failure?
      ==> r == Step(Failure(Subscript(a.result.value, "tables").error), a.log)
    ensures var a := ChunkedAnalysis(env, log, ExtractText(doc));
      a.result.Success? && Subscript(a.result.value, "tables").Success?
      ==> var ts := Iterate(a.result.value.fields["tables"]);
          r == if ts.Failure? then Step(Failure(ts.error), a.log)
               else Save(WriteTables(env, a.log, ExtractText(doc), ts.value))
  {
    var text := ExtractText(doc);
    var analysis := ChunkedAnalysis(env, log, text);
    match analysis.result
    case Failure(e) => Step(Failure(e), analysis.log)
    case Success(a) =>
      match Subscript(a, "tables")
      case Failure(e) => Step(Failure(e), analysis.log)
      case Success(tablesValue) =>
        match Iterate(tablesValue)
        case Failure(e) => Step(Failure(e), analysis.log)
        case Success(tables) => Save(WriteTables(env, analysis.log, text, tables))
  }

  /** The sheet of a failed extraction: the header row, then one row whose
      cell `j` is the sentinel `"Error extracting <column j>"`. */
  lemma SentinelSheet(spec: TableSpec)
    ensures LayoutSheet(spec, SentinelRows(spec.columns)).Success?
    ensures var rows := LayoutSheet(spec, SentinelRows(spec.columns)).value.rows;
      && |rows| == 2 && |rows[1]| == |spec.columns|
      && forall j :: 0 <= j < |spec.columns| ==> rows[1][j] == JStr(SentinelText(spec.columns[j]))
  {
    var data := SentinelRows(spec.columns);
    assert Iterate(data) == Success(data.items);
    var r := LayoutSheet(spec, data);
    forall j | 0 <= j < |spec.columns|
      ensures r.value.rows[1][j] == JStr(SentinelText(spec.columns[j]))
    {
      assert spec.columns[j] in data.items[0].fields;
    }
  }

  /** A column missing from a record is written as the empty string. */
  lemma MissingColumnIsEmpty()
    ensures RowOf(["X", "Y"], JObj(map["X" := JStr("v")])) == Success([JStr("v"), JStr("")])
  {
    var r := RowOf(["X", "Y"], JObj(map["X" := JStr("v")]));
    assert "Y" != "X";
    assert |r.value| == 2 && r.value[0] == JStr("v") && r.value[1] == JStr("");
    assert r.value == [JStr("v"), JStr("")];
  }

  /** A 40-character name is written under its first 31 characters, while the
      schema, and so the reconciliation's name matching, keeps all 40. */
  lemma LongNameTitle(spec: TableSpec, data: Json)
    requires |spec.name| == 40
    requires LayoutSheet(spec, data).Success?
    ensures LayoutSheet(spec, data).value.title == spec.name[..31]
    ensures LayoutSheet(spec, data).value.title != spec.name
  {
  }

  /** Two schemas whose names differ only after the 31st character are told
      apart by the merge, which compares whole names: the second is appended
      next to the first, although both sheets get the same title. */
  lemma SameTitleStillAppended(present: TableSpec, spec: TableSpec)
    requires present.name != spec.name && Title(present.name) == Title(spec.name)
    ensures AppendNew(JArr([SpecJson(present)]), [SpecJson(spec)], [JStr(present.name)])
         == Success(JArr([SpecJson(present), SpecJson(spec)]))
  {
    var p := SpecJson(spec);
    assert p.fields["name"] == JStr(spec.name) != JStr(present.name);
    assert Named([p]);
    FreshOne(p, [JStr(present.name)]);
    assert [SpecJson(present)] + [p] == [SpecJson(present), p];
  }

  /** Records given as a dict are its keys; with no columns to look up, each
      key gives an empty row under the (empty) header row. */
  lemma DictRecordsWithoutColumns(rule: Json)
    ensures var r := LayoutSheet(TableSpec("T", [], rule), JObj(map["a" := JNum(1)]));
      r.Success? && r.value.rows == [[], []]
  {
    var data := JObj(map["a" := JNum(1)]);
    assert |Iterate(data).value| == 1;
  }

  /** The two-person table: one record per person under the header row. */
  lemma PeopleSheet(rule: Json)
    ensures LayoutSheet(TableSpec("People", ["Name", "Age"], rule),
                        JArr([JObj(map["Name" := JStr("Alice"), "Age" := JStr("30")]),
                              JObj(map["Name" := JStr("Bob"), "Age" := JStr("25")])]))
         == Success(Sheet("People", [[JStr("Name"), JStr("Age")],
                                     [JStr("Alice"), JStr("30")],
                                     [JStr("Bob"), JStr("25")]]))
  {
    var data := JArr([JObj(map["Name" := JStr("Alice"), "Age" := JStr("30")]),
                      JObj(map["Name" := JStr("Bob"), "Age" := JStr("25")])]);
    var spec := TableSpec("People", ["Name", "Age"], rule);
    var r := LayoutSheet(spec, data);
    assert "Name" != "Age";
    assert r.Success?;
    assert r.value.rows[0] == [JStr("Name"), JStr("Age")];
    assert r.value.rows[1] == [JStr("Alice"), JStr("30")];
    assert r.value.rows[2] == [JStr("Bob"), JStr("25")];
    assert |r.value.rows| == 3;
    assert Title("People") == "People";
    assert r.value == Sheet("People", [[JStr("Name"), JStr("Age")], [JStr("Alice"), JStr("30")], [JStr("Bob"), JStr("25")]]);
  }

  /** Every extraction prompt sent from position `from` on carries `text`. */
  ghost predicate ExtractsCarry(out: seq<Prompt>, from: nat, text: string) {
    forall i :: from <= i < |out| && out[i].ExtractPrompt? ==> out[i].text == text
  }

  /** A completed chunked analysis sends no extraction prompt. */
  lemma AnalysisSendsNoExtract(env: Env, log: seq<Prompt>, text: string)
    requires ChunkedAnalysis(env, log, text).result.Success?
    ensures log <= ChunkedAnalysis(env, log, text).log
    ensures forall i :: |log| <= i < |ChunkedAnalysis(env, log, text).log| ==> !ChunkedAnalysis(env, log, text).log[i].ExtractPrompt?
  {
    ChunkedAnalysisPrompts(env, log, text);
    var out := ChunkedAnalysis(env, log, text).log;
    var rest := Chunks(text)[1..];
    forall i | |log| <= i < |out| ensures !out[i].ExtractPrompt? {
      if i == |log| {
        assert out[i] == (log + [AnalyzePrompt(Chunks(text)[0])])[i];
      } else {
        var k := i - |log| - 1;
        assert 0 <= k < |rest|;
        assert UpdatesSent(out, |log| + 1, rest, 2);
      }
    }
  }

  /** A completed table loop sends only extraction prompts with the text it is given. */
  lemma WriteTablesCarries(env: Env, log: seq<Prompt>, text: string, tables: seq<Json>)
    requires WriteTables(env, log, text, tables).result.Success?
    ensures ExtractsCarry(WriteTables(env, log, text, tables).log, |log|, text)
  {
    var out := WriteTables(env, log, text, tables).log;
    var prompts := PromptsFor(ReadAll(tables).value, text);
    assert out == log + prompts;
    forall i | |log| <= i < |out| && out[i].ExtractPrompt? ensures out[i].text == text {
      assert out[i] == prompts[i - |log|];
    }
  }

  /** In a completed conversion, every extraction prompt carries the full
      flattened document text, never a chunk, and there is one sheet per table
      of the final analysis, in its order. */
  lemma ExtractionSeesFullText(env: Env, log: seq<Prompt>, doc: Document)
    requires ConvertToExcel(env, log, doc).result.Success?
    ensures var a := ChunkedAnalysis(env, log, ExtractText(doc));
      && a.result.Success?
      && Subscript(a.result.value, "tables").Success?
      && Iterate(Subscript(a.result.value, "tables").value).Success?
      && |ConvertToExcel(env, log, doc).result.value| == |Iterate(Subscript(a.result.value, "tables").value).value|
    ensures ExtractsCarry(ConvertToExcel(env, log, doc).log, |log|, ExtractText(doc))
  {
    var text := ExtractText(doc);
    var a := ChunkedAnalysis(env, log, text);
    assert a.result.Success?;
    var tables := Iterate(Subscript(a.result.value, "tables").value).value;
    var w := WriteTables(env, a.log, text, tables);
    assert ConvertToExcel(env, log, doc) == Save(w) == w;
    AnalysisSendsNoExtract(env, log, text);
    WriteTablesCarries(env, a.log, text, tables);
    assert a.log <= w.log;
  }

  /** In a completed conversion, sheet `k` is exactly what writing table `k`
      of the final analysis gives over the full flattened text, once the
      analysis prompts and the extraction prompts of the tables before it have
      been sent. */
  lemma ConvertedSheets(env: Env, log: seq<Prompt>, doc: Document)
    requires ConvertToExcel(env, log, doc).result.Success?
    ensures var a := ChunkedAnalysis(env, log, ExtractText(doc));
      && a.result.Success?
      && Subscript(a.result.value, "tables").Success?
      && Iterate(Subscript(a.result.value, "tables").value).Success?
      && var tables := Iterate(Subscript(a.result.value, "tables").value).value;
         && ReadAll(tables).Success?
         && |ConvertToExcel(env, log, doc).result.value| == |tables|
         && forall k :: 0 <= k < |tables| ==>
              WriteTable(env, a.log + PromptsFor(ReadAll(tables).value[..k], ExtractText(doc)), ExtractText(doc), tables[k]).result
              == Success(ConvertToExcel(env, log, doc).result.value[k])
  {
    var text := ExtractText(doc);
    var a := ChunkedAnalysis(env, log, text);
    assert a.result.Success?;
    var tables := Iterate(Subscript(a.result.value, "tables").value).value;
    var w := WriteTables(env, a.log, text, tables);
    assert ConvertToExcel(env, log, doc) == Save(w) == w;
    WriteTablesSheets(env, a.log, text, tables);
  }

  /** An analysis that proposes no table ends the conversion with the save's
      `IndexError`: the workbook has no sheet left, after no extraction
      prompt. */
  lemma NoTablesRaises(env: Env, log: seq<Prompt>, doc: Document)
    requires var a := ChunkedAnalysis(env, log, ExtractText(doc));
      a.result.Success? && Subscript(a.result.value, "tables") == Success(JArr([]))
    ensures ConvertToExcel(env, log, doc) == Step(Failure(IndexError), ChunkedAnalysis(env, log, ExtractText(doc)).log)
  {
  }
}

=== FILE: table_specs.dfy ===
/** The table schema the model proposes, as read from its JSON form
    `{"name": ..., "columns": [...], "extraction_rules": ...}`. */
module TableSpecs {
  import opened Results
  import opened PyValues

  /** A table schema: its name, its ordered column names and the
      natural-language rule (kept as whatever JSON value the model gave). */
  datatype TableSpec = TableSpec(name: string, columns: seq<string>, rule: Json)

  /** True iff `t['name']` can be evaluated. */
  predicate HasName(t: Json) {
    t.JObj? && "name" in t.fields
  }

  /** The JSON form of a schema. */
  function SpecJson(spec: TableSpec): (r: Json)
    ensures r.JObj? && r.fields.Keys == {"name", "columns", "extraction_rules"}
    ensures HasName(r) && r.fields["name"] == JStr(spec.name)
  {
    JObj(map["name" := JStr(spec.name), "columns" := StrList(spec.columns), "extraction_rules" := spec.rule])
  }

  /** Reading a schema the way the extraction prompt and the sheet writer use
      it: `t['name']` must be a string (it is sliced for the title),
      `t['columns']` a list of strings (it is joined and appended as a row),
      and `t['extraction_rules']` must be present. */
  function ReadSpec(t: Json): (r: Result<TableSpec, Exc>)
    ensures r.Success? <==>
      && t.JObj? && "name" in t.fields && "columns" in t.fields && "extraction_rules" in t.fields
      && t.fields["name"].JStr? && AsStrings(t.fields["columns"]).Success?
    ensures r.Success? ==>
      && t.fields["name"] == JStr(r.value.name)
      && t.fields["columns"] == StrList(r.value.columns)
      && t.fields["extraction_rules"] == r.value.rule
  {
    var name :- Subscript(t, "name");
    var columns :- Subscript(t, "columns");
    var rule :- Subscript(t, "extraction_rules");
    if !name.JStr? then Failure(TypeError)
    else
      var cols :- AsStrings(columns);
      assert columns == StrList(cols);
      Success(TableSpec(name.s, cols, rule))
  }

  /** Reading the JSON form of a schema gives the schema back. */
  lemma ReadSpecJson(spec: TableSpec)
    ensures ReadSpec(SpecJson(spec)) == Success(spec)
  {
    AsStringsStrList(spec.columns);
  }
}
